=== FILE: README.md ===
# Task planner and status-page scrapers: a Dafny model

This project models the computational core of a student task-planner
service and its helpers, and proves properties of that model:

- **The Celery scraper** (`Lr3/parser/main.py`). It reads the incident list of the
  VK Cloud or Yandex Cloud status page and keeps at most five incidents. Each kept
  incident becomes a task record with a title, a description, a priority,
  a deadline, a random user and status `COMPLETED`. The worker posts the records
  to a callback URL. `GET /result/{id}` reports the job's state.
- **The batch scraper** (`Lr2/lab2/task_2/multiprocessing_parsing.py`). It does the
  same scraping with a cap of ten. It then inserts the whole batch into the `task`
  table inside one transaction, so either every row is stored or none is.
- **The task-planner backend** (`Lr3/application/backend/main.py`). These are the
  HTTP handlers that create, list, patch and delete tasks, create and read
  schedules, and patch time analyses, all over a database session.
- **The first in-memory version** (`Lr1/pr_1/main.py`). Its tasks live in a
  module-level list.
- **The parallel-sum exercises** (`Lr2/lab2/task_1/`). Coroutine, thread and
  process workers each sum one of ten chunks of 1..100000.

Modules, one per file:

| file | module | models |
|---|---|---|
| `wrappers.dfy` | `Wrappers` | `Option` and `Result` |
| `text.dfy` | `Text` | `str.strip()`, `str.split()`, `str.split(c)`, `s[:n]` |
| `timestamps.dfy` | `Timestamps` | `datetime.strptime` and `strftime` for `%Y-%m-%d %H:%M:%S.%f` and `%Y-%m-%dT%H:%M:%S.%fZ` |
| `incidents.dfy` | `Incidents` | what both scrapers share: the page's incidents, the URL table, the description, priority and month rules, and the capped accumulation loop |
| `status_parser.dfy` | `StatusParser` | the Celery scraper |
| `batch_parser.dfy` | `BatchParser` | the batch scraper and its all-or-nothing insert |
| `backend.dfy` | `Backend` | the backend handlers over a `Store` class holding the tables |
| `memory_tasks.dfy` | `MemoryTasks` | the in-memory task list, as a `TaskList` class |
| `range_sums.dfy` | `RangeSums` | the three chunked sums |

How the page is modelled:

- A scraped page is a sequence of `Incident` values.
- Each field is `None` where `find_element` raises `NoSuchElementException` and
  `Some(text)` otherwise.
- The Yandex `datetime` attribute is one level deeper. It is itself optional,
  because `get_attribute` returns `None`.
- The per-incident `try` body becomes a function returning a record or a
  `SkipReason`.
- The accumulation loop is a method proved equal to `Collect`. `Collect` is a
  function over the outcomes that keeps successes in page order and stops once
  the cap is reached.

## Model

| member | source | states |
|---|---|---|
| Text.Strip | students/k33421/Makunina_Arina/Lr3/parser/main.py:96 | the stripped text has no whitespace at either end; it is empty exactly when the input is all whitespace (Python's `isspace` set) |
| Text.StripRemovesEnds | students/k33421/Makunina_Arina/Lr3/parser/main.py:96 | the stripped text is a slice of the input with only whitespace cut off before and after it |
| Text.StripCutStrip | students/k33421/Makunina_Arina/Lr3/parser/main.py:130 | stripping, cutting to the length of the first word and stripping again gives back that word when the text starts with whitespace and the word |
| Text.StripUnpadded | students/k33421/Makunina_Arina/Lr3/parser/main.py:96 | stripping text with no whitespace at either end leaves it unchanged |
| Text.Prefix | students/k33421/Makunina_Arina/Lr3/parser/main.py:130 | `s[:n]` is the prefix of length min(n, len(s)) |
| Text.Words | students/k33421/Makunina_Arina/Lr3/parser/main.py:123 | every word `split()` returns is non-empty and free of whitespace, and there are none exactly when the text is all whitespace |
| Text.WordsOfPair | students/k33421/Makunina_Arina/Lr3/parser/main.py:123-125 | a word, a whitespace gap and a word split into exactly those two words |
| Text.GlueWords | students/k33421/Makunina_Arina/Lr3/parser/main.py:123 | words glued together with whitespace gaps (non-empty between words, any at the ends) split back into exactly those words |
| Text.WordsGaps | students/k33421/Makunina_Arina/Lr3/parser/main.py:123 | conversely every text is its words glued together with such gaps, so `split()` drops only whitespace |
| Text.SplitOn | students/k33421/Makunina_Arina/Lr2/lab2/task_2/multiprocessing_parsing.py:114 | `split(c)` gives one more piece than there are `c`s, and no piece contains `c` |
| Text.SplitOnce | students/k33421/Makunina_Arina/Lr2/lab2/task_2/multiprocessing_parsing.py:114 | a text with exactly one `c` splits into the text before it and the text after it |
| Text.SplitJoin | students/k33421/Makunina_Arina/Lr2/lab2/task_2/multiprocessing_parsing.py:114 | joining the pieces with `c` gives back the original text |
| Timestamps.DaysInMonth | students/k33421/Makunina_Arina/Lr3/parser/main.py:134-136 | 31 days exactly for January, March, May, July, August, October and December; 30 exactly for April, June, September and November; 29 exactly for February of a Gregorian leap year and 28 for any other February |
| Timestamps.PadValue | students/k33421/Makunina_Arina/Lr3/parser/main.py:137 | reading a zero-padded field back gives the number written |
| Timestamps.ScanWellFormed | students/k33421/Makunina_Arina/Lr3/parser/main.py:134-136 | the text cuts into non-empty digit runs and single non-digit characters |
| Timestamps.ScanUnscan | students/k33421/Makunina_Arina/Lr3/parser/main.py:134-136 | writing alternating tokens out and cutting the text again gives the same tokens |
| Timestamps.ScanConcat | students/k33421/Makunina_Arina/Lr3/parser/main.py:134-136 | cutting a concatenation is the concatenation of the cuts when the seam does not join two digit runs |
| Timestamps.Strptime | students/k33421/Makunina_Arina/Lr3/parser/main.py:134-136 | a successful parse is a date-time the `datetime` constructor accepts (year 1..9999, day within its month, and so on) |
| Timestamps.StrptimeFields | students/k33421/Makunina_Arina/Lr3/parser/main.py:134-136 | a parse follows the layout, with a four-digit year, one- or two-digit month, day, hour, minute and second, and one to six fraction digits; each field is the value of its digit run, and the fraction is scaled to microseconds |
| Timestamps.StrptimeAccepts | students/k33421/Makunina_Arina/Lr3/parser/main.py:134-136 | conversely a text with that layout and those widths whose fields form a valid date-time parses to it |
| Timestamps.PlainTokensParse | students/k33421/Makunina_Arina/Lr3/parser/main.py:134-136 | a text cut into `Y-m-d H:M:S.f` digit runs of the accepted widths, whose values form a valid date-time, parses to that date-time |
| Timestamps.RenderParses | students/k33421/Makunina_Arina/Lr3/parser/main.py:137 | parsing what `strftime` wrote gives back the same date-time, in both formats |
| Timestamps.RenderText | students/k33421/Makunina_Arina/Lr3/parser/main.py:137 | a rendering is the padded date, the date/time separator, the padded time and, for ISO, a trailing `Z` |
| Timestamps.RenderPositions | students/k33421/Makunina_Arina/Lr3/parser/main.py:137 | in a plain rendering each of the seven fields sits at its fixed position with its width, and the separators are at 4, 7, 10, 13, 16 and 19 |
| Timestamps.RenderPattern | students/k33421/Makunina_Arina/Lr3/parser/main.py:137 | every plain rendering has the emitted deadline shape `dddd-dd-dd dd:dd:dd.dddddd` |
| Timestamps.RenderIsoIsPlainWithTZ | students/k33421/Makunina_Arina/Lr3/parser/main.py:148-150 | the ISO rendering is the plain one with the space turned into `T` and a `Z` appended |
| Incidents.SiteOf | students/k33421/Makunina_Arina/Lr3/parser/main.py:38-54 | the selector table knows exactly the VK and the Yandex URL |
| Incidents.DescriptionOf | students/k33421/Makunina_Arina/Lr3/parser/main.py:85-91 | a missing description element gives "Description not found"; otherwise its text |
| Incidents.PriorityOf | students/k33421/Makunina_Arina/Lr3/parser/main.py:95-97 | the priority is LOW exactly when the stripped status text is "Resolved", and HIGH otherwise |
| Incidents.MonthCodesOfNames | students/k33421/Makunina_Arina/Lr3/parser/main.py:108-121 | the mapping's keys are the twelve genitive month names, and the m-th name maps to m written with two digits |
| Incidents.MonthOfCode | students/k33421/Makunina_Arina/Lr3/parser/main.py:108-121 | every key of the mapping is the name of some month m, and its code is m written with two digits |
| Incidents.MonthNumber | students/k33421/Makunina_Arina/Lr3/parser/main.py:108-121 | every code in the mapping is some month 1..12 written with two digits |
| Incidents.VkDayMonth | students/k33421/Makunina_Arina/Lr3/parser/main.py:123-125 | the date fails as malformed exactly when it has fewer than two words, with an unknown month exactly when its second word is not a month name; otherwise it gives the first word and the code of the second |
| Incidents.VkDayMonthOfText | students/k33421/Makunina_Arina/Lr3/parser/main.py:123-125 | "day, whitespace, m-th month name" gives the day and the code of m |
| Incidents.VkDateTextFields | students/k33421/Makunina_Arina/Lr3/parser/main.py:131-136 | parsing the built date text for month m gives year 2024, month m, second 0 and no fraction |
| Incidents.VkDayMonthFields | students/k33421/Makunina_Arina/Lr3/parser/main.py:123-136 | a VK date-time that parses is in 2024, at second 0 with no fraction, in the month whose code the mapping gives for the date's second word |
| Incidents.VkDateTextTokens | students/k33421/Makunina_Arina/Lr3/parser/main.py:132 | the built text has the year `2024`, the month code, and zero seconds and fraction at their token positions |
| Incidents.VkDateTextParses | students/k33421/Makunina_Arina/Lr3/parser/main.py:131-136 | the built text for month m, a day of one or two digits within that month of 2024 and an `HH:MM` time of a valid hour and minute parses to that date-time at second 0 |
| Incidents.Collect | students/k33421/Makunina_Arina/Lr3/parser/main.py:80-172 | the accumulation keeps at most `cap` records and never more than there are incidents |
| Incidents.CollectInvariantStep | students/k33421/Makunina_Arina/Lr3/parser/main.py:155-168 | the loop invariant (what is kept, plus what the rest would add, is the final result) survives one incident |
| Incidents.CollectInvariantDone | students/k33421/Makunina_Arina/Lr3/parser/main.py:166-168 | at the page's end, or on the break at the cap, the kept records are the final result |
| Incidents.CollectIsCappedSurvivors | students/k33421/Makunina_Arina/Lr3/parser/main.py:80-172 | the result is exactly the first `cap` successful records in page order |
| Incidents.SurvivorsConcat | students/k33421/Makunina_Arina/Lr3/parser/main.py:80-172 | the successes of two pages back to back are the successes of each, in order |
| Incidents.SkipIsInvisible | students/k33421/Makunina_Arina/Lr3/parser/main.py:171-172 | removing an incident that failed does not change the result |
| Incidents.CollectAllSucceed | students/k33421/Makunina_Arina/Lr3/parser/main.py:155-168 | when every incident succeeds, the result is the first min(n, cap) records |
| StatusParser.VkTime | students/k33421/Makunina_Arina/Lr3/parser/main.py:126-130 | a range containing "в" gives "00:00", as does an all-whitespace range; otherwise the stripped range is cut to five characters and stripped again |
| StatusParser.VkTimeOfClock | students/k33421/Makunina_Arina/Lr3/parser/main.py:126-130 | a range without "в" made of whitespace, an `HH:MM` clock and anything after gives that clock |
| StatusParser.VkDeadlineOfText | students/k33421/Makunina_Arina/Lr3/parser/main.py:102-137 | every VK date "day, whitespace, month name" of a real day in 2024 with a range whose time is a valid `HH:MM` converts to the rendering of that date-time at second 0 |
| StatusParser.VkDeadlineShape | students/k33421/Makunina_Arina/Lr3/parser/main.py:102-143 | a VK deadline has the emitted shape, year `2024`, the month's code at 5..7, and zero seconds and fraction |
| StatusParser.VkZeroTail | students/k33421/Makunina_Arina/Lr3/parser/main.py:131-137 | rendering a 2024 date-time at second 0 with no fraction shows `2024`, the month's code, `00` seconds and a zero fraction |
| StatusParser.YandexDeadlineOfIso | students/k33421/Makunina_Arina/Lr3/parser/main.py:144-150 | any ISO timestamp of a valid date-time is re-emitted with `T` turned into a space and `Z` dropped |
| StatusParser.YandexDeadlineShape | students/k33421/Makunina_Arina/Lr3/parser/main.py:144-150 | a missing `datetime` attribute is exactly the MissingAttribute failure; every produced deadline has the emitted shape |
| StatusParser.ExtractRecord | students/k33421/Makunina_Arina/Lr3/parser/main.py:80-172 | a missing title or status skips the incident; otherwise it is kept exactly when its deadline converts, with the conversion's failure as the skip reason; a kept one carries the title, the description rule, the priority rule, the drawn user, COMPLETED and the converted deadline, of the emitted shape |
| StatusParser.ExtractSkips | students/k33421/Makunina_Arina/Lr3/parser/main.py:102-150 | after the title and status, a missing VK date or time range, a VK date with fewer than two words or an unknown month word, or a missing Yandex `datetime` attribute skips the incident with that reason |
| StatusParser.ExtractIgnoresDescription | students/k33421/Makunina_Arina/Lr3/parser/main.py:85-91 | whether an incident is kept does not depend on its description element |
| StatusParser.ParseData | students/k33421/Makunina_Arina/Lr3/parser/main.py:61-175 | an unknown URL is a KeyError; otherwise the result is `Collect` of the page's outcomes with cap 5 |
| StatusParser.GetResult | students/k33421/Makunina_Arina/Lr3/parser/main.py:30-35 | the answer carries the job's state, and the result exactly when the state is SUCCESS |
| StatusParser.CallbackMessage | students/k33421/Makunina_Arina/Lr3/parser/main.py:182-187 | "Parsing completed" exactly for status 200; otherwise the failure message naming the callback URL |
| StatusParser.ParseUrlTask | students/k33421/Makunina_Arina/Lr3/parser/main.py:178-187 | the worker raises exactly for an unknown URL; otherwise it posts the capped records and reports "Parsing completed" exactly on status 200, and otherwise "Failed to send data to callback URL: " followed by the callback URL |
| BatchParser.VkTime | students/k33421/Makunina_Arina/Lr2/lab2/task_2/multiprocessing_parsing.py:113-118 | two or more "в" make the unpacking fail; without "в", the stripped range is cut to five characters and stripped again |
| BatchParser.VkTimeAfterMarker | students/k33421/Makunina_Arina/Lr2/lab2/task_2/multiprocessing_parsing.py:113-118 | with exactly one "в", only the text after it matters |
| BatchParser.VkTimeOfClock | students/k33421/Makunina_Arina/Lr2/lab2/task_2/multiprocessing_parsing.py:113-118 | a range without "в" made of whitespace, an `HH:MM` clock and anything after gives that clock |
| BatchParser.VkDeadlineOfText | students/k33421/Makunina_Arina/Lr2/lab2/task_2/multiprocessing_parsing.py:110-123 | every VK date "day, whitespace, month name" of a real day in 2024 with a range whose time is a valid `HH:MM` parses to that date-time at second 0 |
| BatchParser.VkDeadlineFields | students/k33421/Makunina_Arina/Lr2/lab2/task_2/multiprocessing_parsing.py:110-123 | a parsed VK deadline comes from a date and a range that both convert; it is in 2024, at second 0 with no fraction, in the month whose code the date's month word maps to |
| BatchParser.YandexKeptIff | students/k33421/Makunina_Arina/Lr2/lab2/task_2/multiprocessing_parsing.py:65-150 | a Yandex incident is kept exactly when its title, status and deadline elements exist; its deadline is the raw attribute, possibly None |
| BatchParser.VkKeptIff | students/k33421/Makunina_Arina/Lr2/lab2/task_2/multiprocessing_parsing.py:65-150 | a VK incident is kept exactly when its title, status, date and time range elements exist and the date and range convert; its deadline is that conversion |
| BatchParser.CollectIncidents | students/k33421/Makunina_Arina/Lr2/lab2/task_2/multiprocessing_parsing.py:59-150 | the loop's records are `Collect` of the page's outcomes with cap 10 |
| BatchParser.RowsRoundTrip | students/k33421/Makunina_Arina/Lr2/lab2/task_2/multiprocessing_parsing.py:155-168 | every record is read back unchanged from its inserted row, and every row of a batch has the batch's NOW() as both created and updated time |
| BatchParser.Connection.constructor | students/k33421/Makunina_Arina/Lr2/lab2/task_2/multiprocessing_parsing.py:35-39 | a connection starts with the table's rows and no pending statement |
| BatchParser.Connection.Execute | students/k33421/Makunina_Arina/Lr2/lab2/task_2/multiprocessing_parsing.py:155-168 | an insert either fails or adds its row to the open transaction, never to the committed table |
| BatchParser.Connection.Commit | students/k33421/Makunina_Arina/Lr2/lab2/task_2/multiprocessing_parsing.py:169 | a successful commit appends the pending rows to the table |
| BatchParser.Connection.Rollback | students/k33421/Makunina_Arina/Lr2/lab2/task_2/multiprocessing_parsing.py:172 | a rollback discards the pending rows and leaves the table as it was |
| BatchParser.InsertBatch | students/k33421/Makunina_Arina/Lr2/lab2/task_2/multiprocessing_parsing.py:152-173 | the batch is stored exactly when no insert and not the commit fails; then the table gains all rows in order, otherwise it is unchanged |
| BatchParser.ParseData | students/k33421/Makunina_Arina/Lr2/lab2/task_2/multiprocessing_parsing.py:46-175 | an unknown URL raises before touching the table; otherwise the capped records are inserted all-or-nothing, and stored exactly when no insert and not the commit fails |
| Backend.ViewOf | students/k33421/Makunina_Arina/Lr3/application/backend/main.py:52-59 | the response carries the task's id, title, description, priority, status and owner, each equal to the stored one |
| Backend.Patch | students/k33421/Makunina_Arina/Lr3/application/backend/main.py:152-158 | a given title, description or priority replaces the stored one; every other field is kept; `updated_at` becomes now |
| Backend.PatchIdempotent | students/k33421/Makunina_Arina/Lr3/application/backend/main.py:152-158 | applying the same patch twice at the same instant equals applying it once |
| Backend.PatchCompose | students/k33421/Makunina_Arina/Lr3/application/backend/main.py:152-158 | two patches equal one patch whose fields come from the second where it gives them |
| Backend.LinksFor | students/k33421/Makunina_Arina/Lr3/application/backend/main.py:89-92 | the links added join the new schedule to exactly the listed tasks |
| Backend.LinksForCount | students/k33421/Makunina_Arina/Lr3/application/backend/main.py:78-93 | with distinct task ids, there are as many links as ids |
| Backend.LinksForRepeat | students/k33421/Makunina_Arina/Lr3/application/backend/main.py:78-93 | a repeated task id yields fewer distinct links than ids: a primary-key clash |
| Backend.LinksForBound | students/k33421/Makunina_Arina/Lr3/application/backend/main.py:78-93 | never more links than ids |
| Backend.Store.constructor | students/k33421/Makunina_Arina/Lr3/application/backend/main.py:37-38 | freshly created tables are empty and satisfy the key and foreign-key invariant |
| Backend.Store.CreateTask | students/k33421/Makunina_Arina/Lr3/application/backend/main.py:41-59 | the task is stored under the next id with the caller as owner and returned as its view; nothing else changes |
| Backend.Store.ReadTasks | students/k33421/Makunina_Arina/Lr3/application/backend/main.py:62-65 | exactly the views of the stored tasks, whoever owns them |
| Backend.ReadTasksCount | students/k33421/Makunina_Arina/Lr3/application/backend/main.py:62-65 | one view per stored task |
| Backend.Store.CreateSchedule | students/k33421/Makunina_Arina/Lr3/application/backend/main.py:68-94 | the schedule is committed whatever follows; 404 exactly when a task that is not the caller's is reached before any repeated id, 500 exactly when a repeated id comes first; success exactly when all tasks are the caller's and distinct, and then the links are added and the date returned; on an error no link is added |
| Backend.Store.LinkTasks | students/k33421/Makunina_Arina/Lr3/application/backend/main.py:78-93 | the loop over the ids, with each query's autoflush of the previous link: the same 404/500/success cases, and on success the links for exactly the listed ids |
| Backend.Store.MissingBeforeRepeatOfDistinct | students/k33421/Makunina_Arina/Lr3/application/backend/main.py:78-93 | with no repeated id, the 404 case is exactly a listed task that is not the caller's |
| Backend.Store.MissingBeforeRepeatOfOwned | students/k33421/Makunina_Arina/Lr3/application/backend/main.py:78-93 | when every listed task is the caller's, the 404 case cannot arise |
| Backend.Store.RepeatReportedFirst | students/k33421/Makunina_Arina/Lr3/application/backend/main.py:78-93 | for ids `[a, a, x]` with `a` the caller's and `x` not, the answer is the 500 of the failed flush, not the 404 |
| Backend.Store.ScheduleViewOf | students/k33421/Makunina_Arina/Lr3/application/backend/main.py:109-115 | a schedule's view holds its id, its date and exactly the views of its linked tasks |
| Backend.Store.OwnedSchedules | students/k33421/Makunina_Arina/Lr3/application/backend/main.py:117-119 | exactly the ids of the caller's schedules |
| Backend.Store.ReadSchedules | students/k33421/Makunina_Arina/Lr3/application/backend/main.py:97-132 | a truthy id gives that schedule's view if it is the caller's and 404 otherwise; no id, or 0, gives each of the caller's schedules once |
| Backend.Store.UpdateTask | students/k33421/Makunina_Arina/Lr3/application/backend/main.py:135-170 | 404 exactly for a missing task, 403 exactly for someone else's, success exactly for the caller's task; then the task is patched and its view returned; nothing else changes |
| Backend.Store.DeleteTask | students/k33421/Makunina_Arina/Lr3/application/backend/main.py:173-187 | 404 exactly unless the task is the caller's; a task with time analyses fails the commit; success exactly for the caller's task without analyses, and then the task and its links go |
| Backend.Store.UpdateTimeAnalysis | students/k33421/Makunina_Arina/Lr3/application/backend/main.py:192-226 | 404 for a missing analysis, 403 exactly when its task is someone else's, 404 exactly when the body names no task; success exactly when the analysis exists, its task is the caller's and the body names a stored task, and then only a given `time_spent` replaces the stored one |
| MemoryTasks.Seed | students/k33421/Makunina_Arina/Lr1/pr_1/main.py:13-30 | the list starts with tasks 1 and 2 |
| MemoryTasks.Merge | students/k33421/Makunina_Arina/Lr1/pr_1/main.py:52-53 | each field set in the request replaces the stored one; unset fields and the id are kept |
| MemoryTasks.MergeNothing | students/k33421/Makunina_Arina/Lr1/pr_1/main.py:52-53 | an empty request changes nothing |
| MemoryTasks.Listing | pr_1/models.py:48-54 | building the responses of a list succeeds exactly when every task has `time_spent` (the field has no default), and then gives every task in order; otherwise it is the validation error |
| MemoryTasks.MergeResponds | students/k33421/Makunina_Arina/Lr1/pr_1/main.py:52-54 | a merged copy can be answered exactly when the stored task had `time_spent` or the request sets it |
| MemoryTasks.SeedListed | students/k33421/Makunina_Arina/Lr1/pr_1/main.py:13-37 | both seed tasks carry `time_spent`, so the initial list is served in full |
| MemoryTasks.IndexOf | students/k33421/Makunina_Arina/Lr1/pr_1/main.py:50-51 | the position of the first task with the id, or none when no task has it |
| MemoryTasks.Without | students/k33421/Makunina_Arina/Lr1/pr_1/main.py:61 | exactly the tasks whose id differs |
| MemoryTasks.WithoutAbsent | students/k33421/Makunina_Arina/Lr1/pr_1/main.py:61 | deleting an id no task has leaves the list unchanged |
| MemoryTasks.WithoutIdempotent | students/k33421/Makunina_Arina/Lr1/pr_1/main.py:61 | deleting twice equals deleting once |
| MemoryTasks.WithoutConcat | students/k33421/Makunina_Arina/Lr1/pr_1/main.py:61 | deleting distributes over the two halves of a list |
| MemoryTasks.NextIdFresh | students/k33421/Makunina_Arina/Lr1/pr_1/main.py:43 | while ids are 1..n in order, `len + 1` is unused and appending keeps them so |
| MemoryTasks.DuplicateAfterDelete | students/k33421/Makunina_Arina/Lr1/pr_1/main.py:43 | after deleting task 1 from the seed list, a created task gets id 2, which task 2 already has |
| MemoryTasks.TaskList.constructor | students/k33421/Makunina_Arina/Lr1/pr_1/main.py:13-30 | the list starts as the seed, with ids 1..n |
| MemoryTasks.TaskList.GetTasks | students/k33421/Makunina_Arina/Lr1/pr_1/main.py:35-37 | every stored task in stored order when each has `time_spent`; otherwise 500 |
| MemoryTasks.TaskList.Create | students/k33421/Makunina_Arina/Lr1/pr_1/main.py:40-45 | the body gets id `len + 1` and is appended, and with ids 1..n that id is used by no earlier task and the ids stay 1..n; the answer is always 500, because the new task has no `time_spent`, and from then on `GET /tasks` answers 500 |
| MemoryTasks.TaskList.Update | students/k33421/Makunina_Arina/Lr1/pr_1/main.py:48-55 | 404 exactly when no task has the id; 500 exactly when the merged copy of the first such task has no `time_spent`; otherwise that copy is returned; the list is not changed |
| MemoryTasks.TaskList.Delete | students/k33421/Makunina_Arina/Lr1/pr_1/main.py:58-62 | every task with the id is removed, the others stay in order; the answer is always "Task deleted" |
| RangeSums.Gauss | students/k33421/Makunina_Arina/Lr2/lab2/task_1/asyn.py:5-7 | twice the sum of start..end is the count times (start + end) |
| RangeSums.SumRangeSplit | students/k33421/Makunina_Arina/Lr2/lab2/task_1/asyn.py:5-7 | summing two adjacent ranges gives the sum of the whole |
| RangeSums.ChunkBounds | students/k33421/Makunina_Arina/Lr2/lab2/task_1/asyn.py:16-18 | chunk i is i*10000+1..(i+1)*10000, and consecutive chunks meet without a gap or an overlap |
| RangeSums.ChunksTile | students/k33421/Makunina_Arina/Lr2/lab2/task_1/asyn.py:16-18 | every number of 1..100000 lies in exactly one chunk |
| RangeSums.ChunkPrefixTotal | students/k33421/Makunina_Arina/Lr2/lab2/task_1/asyn.py:21-22 | the first k chunk sums add up to the sum of 1..k*10000 |
| RangeSums.ChunkSumsTotal | students/k33421/Makunina_Arina/Lr2/lab2/task_1/asyn.py:22 | the ten chunk sums total 5000050000 |
| RangeSums.ChunkSumBound | students/k33421/Makunina_Arina/Lr2/lab2/task_1/multi.py:14 | each chunk sum is positive and at most 950005000, which a signed 32-bit C `int` holds |
| RangeSums.GatherSums | students/k33421/Makunina_Arina/Lr2/lab2/task_1/asyn.py:10-22 | the gathered results are the chunk sums in chunk order, and they total 5000050000 |
| RangeSums.CalculateSumInto | students/k33421/Makunina_Arina/Lr2/lab2/task_1/thread.py:5-7 | a worker writes its chunk's sum to its own slot and nothing else |
| RangeSums.ThreadSums | students/k33421/Makunina_Arina/Lr2/lab2/task_1/thread.py:10-27 | in any order the threads run, every slot ends with its own chunk's sum, and they total 5000050000 |
| RangeSums.Wrap32 | students/k33421/Makunina_Arina/Lr2/lab2/task_1/multi.py:14 | storing into a C `int` keeps the value modulo 2^32, and in-range values unchanged |
| RangeSums.CalculateSumShared | students/k33421/Makunina_Arina/Lr2/lab2/task_1/multi.py:5-7 | a process writes its chunk's sum, as a C `int`, to its own slot and nothing else |
| RangeSums.ProcessSums | students/k33421/Makunina_Arina/Lr2/lab2/task_1/multi.py:10-27 | in any order the processes run, no slot overflows, every slot holds its own chunk's sum, and they total 5000050000 |

## Left out

- The browser is not modelled. Selenium, the driver's waits and its lifecycle are
  outside the model: a page is a sequence of incidents whose elements are present
  or absent.
- Random values and clocks are inputs. `random.randint(1, 3)` is one `Assignee`
  input per incident. `NOW()` and `datetime.utcnow()` are `now` parameters, and
  the timing around the runs is dropped.
- Logging and `print` are left out; they change no result.
- The Celery queue is not modelled.
  - `parse_url` (`Lr3/parser/main.py:24-27`) only enqueues a job and is left out.
  - The job's state is an input to `StatusParser.GetResult`.
  - Retries and worker processes are not modelled.
- The callback is not modelled beyond its answer. The HTTP status of
  `requests.post` is an input, and network errors are left out.
- `/parse/` accepts any URL; for one outside the two known sites the worker
  fails with a `KeyError` at `css_elements[url]` (`UnknownUrl` in the model).
- PostgreSQL and SQLModel are modelled by their effects only.
  - In the batch scraper, a `Connection` class with failure inputs for each
    insert and for the commit stands in for PostgreSQL.
  - In the backend, maps and sets in `Store` stand in for the tables.
  - SQL gives no row order, so `Backend.Store.ReadTasks` returns a set.
    `Backend.Store.ReadSchedules` lists each owned schedule once in some
    order, and a schedule's tasks form a set.
- `Backend.Store.DeleteTask` assumes the time-analysis foreign key has no cascade,
  so deleting an analysed task fails at the commit (500).
- Request authentication is an input. `get_current_user` is the `user` parameter;
  `Lr3/app/endpoints/auth.py` is not part of this model.
- Pydantic validation is modelled only for the missing `time_spent` of an
  in-memory task (`MemoryTasks.Responds`). Request validation and the
  `from_orm` conversions of the backend are not modelled.
- MemoryTasks.TaskList.Update: a request that sends `"time_spent": null`
  explicitly is the same as one that leaves it out; Python would copy the
  `None` and answer 500.
- Timestamps.Render: always writes the year with four digits, as
  `strftime("%Y")` does from CPython 3.13 on. Earlier releases hand `%Y` to
  the C library, and glibc writes a year below 1000 without padding, so
  there a Yandex attribute such as `0999-01-01T00:00:00.000Z` comes out as
  `999-01-01 00:00:00.000000` and does not have the four-digit shape that
  `Timestamps.RenderPattern` and `StatusParser.YandexDeadlineShape` state.
- `time_spent` is a `real`: floating-point rounding is not modelled.
- `parse_data_in_parallel` (`multiprocessing_parsing.py:184-186`) runs the two
  sites in separate processes. The runs share nothing in the model, so it is one
  `BatchParser.ParseData` call per URL.
- `BatchParser.ParseData` returns the collected records and whether they were
  stored. The Python function returns nothing; the result is there so the
  properties can name it.
- Timestamps.Strptime: covers only the two formats used here. Against Python's
  `_strptime` it differs in four ways:
  - it matches case-sensitively, while Python ignores case (`t` and `z` would be
    accepted);
  - a format space matches exactly one space, not any run of whitespace;
  - the `%d` form with a leading space (`" 5"`) is not accepted;
  - digits are ASCII only, while Python's `\d` and `int()` also take other
    Unicode decimal digits.

  The first three cannot arise in the VK text built here. The fourth can: the
  day and the clock come from the page text, so a day such as `1５` (with a
  full-width digit) is accepted by Python and rejected by the model. A Yandex
  attribute spelled in any of these ways is affected the same way.
- StatusParser.ParseData: the broad `except Exception` skips an incident only for
  the causes `SkipReason` names. Those are a missing element, an unknown month or
  too few date words, and a timestamp that does not parse. Failures inside the
  browser are outside the model.

=== FILE: backend.dfy ===
/**
 * The task-planner HTTP service: tasks, schedules grouping tasks, and time
 * analyses attached to tasks, kept in one database and reached through
 * FastAPI handlers.  The database session is the `Store` object; a handler
 * that raises `HTTPException` (or an error the database reports on commit)
 * leaves the store as the last commit left it.  The authenticated user
 * arrives as their id; the clock (`datetime.utcnow`) as an instant.
 */
module Backend {
  import opened Wrappers
  import opened Incidents

  /** A point in time, as the clock or the request supplies it. */
  type Instant = int

  /** A row of `task`. */
  datatype Task = Task(
    title: string,
    description: string,
    priority: PriorityLevel,
    deadline: Instant,
    userId: int,
    status: TaskStatus,
    createdAt: Instant,
    updatedAt: Instant)

  /** The `CreateTask` body; its `user_id` is not trusted. */
  datatype NewTask = NewTask(title: string, description: string, deadline: Instant,
                             priority: PriorityLevel, userId: int)

  /** The `UpdateTask` body: every field but `user_id` optional. */
  datatype TaskPatch = TaskPatch(
    title: Option<string>,
    description: Option<string>,
    deadline: Option<Instant>,
    priority: Option<PriorityLevel>,
    timeSpent: Option<real>,
    userId: int)

  /** A row of `schedule`. */
  datatype Schedule = Schedule(date: Instant, userId: int)

  /** A row of `taskschedulelink`; the pair is its primary key. */
  datatype Link = Link(taskId: int, scheduleId: int)

  /** A row of `timeanalysis`; `time_spent` is a float that is only ever copied. */
  datatype TimeAnalysis = TimeAnalysis(taskId: int, timeSpent: real)

  /** The `CreateTimeAnalysis` body used by the update. */
  datatype AnalysisPatch = AnalysisPatch(taskId: int, timeSpent: Option<real>)

  /** `TaskResponse`, `ScheduleResponse` and `TimeAnalysisResponse`. */
  datatype TaskView = TaskView(id: int, title: string, description: string,
                               priority: PriorityLevel, status: TaskStatus, userId: int)
  datatype ScheduleView = ScheduleView(id: int, date: Instant, tasks: set<TaskView>)
  datatype AnalysisView = AnalysisView(id: int, taskId: int, timeSpent: real)

  /** The status code of an `HTTPException`, or 500 for an error the database raised. */
  datatype HttpError = NotFound | Forbidden | InternalError

  function ViewOf(id: int, t: Task): (v: TaskView)
    ensures v.id == id && v.userId == t.userId && v.title == t.title
    ensures v.description == t.description && v.priority == t.priority && v.status == t.status
  {
    TaskView(id, t.title, t.description, t.priority, t.status, t.userId)
  }

  /**
   * `update_task`'s field-by-field overwrite: a field given in the patch
   * replaces the stored one, a missing one keeps it; `deadline`,
   * `time_spent` and `user_id` of the patch are ignored; `updated_at` is now.
   */
  function Patch(t: Task, p: TaskPatch, now: Instant): (u: Task)
    ensures p.title.None? ==> u.title == t.title
    ensures p.title.Some? ==> u.title == p.title.value
    ensures p.description.None? ==> u.description == t.description
    ensures p.description.Some? ==> u.description == p.description.value
    ensures p.priority.None? ==> u.priority == t.priority
    ensures p.priority.Some? ==> u.priority == p.priority.value
    ensures u.deadline == t.deadline && u.userId == t.userId && u.status == t.status
    ensures u.createdAt == t.createdAt && u.updatedAt == now
  {
    t.(title := p.title.GetOr(t.title),
       description := p.description.GetOr(t.description),
       priority := p.priority.GetOr(t.priority),
       updatedAt := now)
  }

  /** Sending the same patch twice at the same instant changes nothing the second time. */
  lemma PatchIdempotent(t: Task, p: TaskPatch, now: Instant)
    ensures Patch(Patch(t, p, now), p, now) == Patch(t, p, now)
  {
  }

  /** Two patches, the second one's fields winning where given, equal one combined patch. */
  lemma PatchCompose(t: Task, p: TaskPatch, q: TaskPatch, now1: Instant, now2: Instant)
    ensures Patch(Patch(t, p, now1), q, now2) ==
      Patch(t, TaskPatch(if q.title.Some? then q.title else p.title,
                         if q.description.Some? then q.description else p.description,
                         q.deadline,
                         if q.priority.Some? then q.priority else p.priority,
                         q.timeSpent, q.userId), now2)
  {
  }

  /** Distinct entries of a list. */
  predicate Distinct(ids: seq<int>) {
    forall i, j :: 0 <= i < j < |ids| ==> ids[i] != ids[j]
  }

  /** Ids that are all different, followed by one more that is new, are all different. */
  lemma DistinctExtend(ids: seq<int>, i: nat)
    requires 0 < i <= |ids| && Distinct(ids[..i - 1]) && ids[i - 1] !in ids[..i - 1]
    ensures Distinct(ids[..i])
  {
    var p := ids[..i];
    forall a, b | 0 <= a < b < |p| ensures p[a] != p[b] {
      if b < i - 1 {
        assert p[a] == ids[..i - 1][a] && p[b] == ids[..i - 1][b];
      } else {
        assert p[a] == ids[..i - 1][a];
      }
    }
  }

  /** Once an id repeats, every longer prefix has a repeat. */
  lemma RepeatSpoils(ids: seq<int>, i: nat)
    requires 0 < i <= |ids| && ids[i - 1] in ids[..i - 1]
    ensures forall k :: i <= k <= |ids| ==> !Distinct(ids[..k])
  {
    var a :| 0 <= a < i - 1 && ids[..i - 1][a] == ids[i - 1];
    forall k | i <= k <= |ids| ensures !Distinct(ids[..k]) {
      assert ids[..k][a] == ids[..k][i - 1];
    }
  }

  /** The links `create_schedule` adds for schedule `sid`, one per listed task id. */
  function LinksFor(ids: seq<int>, sid: int): (ls: set<Link>)
    ensures forall l :: l in ls <==> l.scheduleId == sid && l.taskId in ids
  {
    set t | t in ids :: Link(t, sid)
  }

  /** With distinct ids there is exactly one link per listed id. */
  lemma {:induction false} LinksForCount(ids: seq<int>, sid: int)
    requires Distinct(ids)
    ensures |LinksFor(ids, sid)| == |ids|
  {
    if ids != [] {
      var last := ids[|ids| - 1];
      var init := ids[..|ids| - 1];
      assert Distinct(init);
      LinksForCount(init, sid);
      assert last !in init;
      assert LinksFor(ids, sid) == LinksFor(init, sid) + {Link(last, sid)};
    }
  }

  /** A repeated id collapses into one link, so the primary key rejects the second insert. */
  lemma LinksForRepeat(ids: seq<int>, sid: int)
    requires !Distinct(ids)
    ensures |LinksFor(ids, sid)| < |ids|
  {
    var i, j :| 0 <= i < j < |ids| && ids[i] == ids[j];
    var rest := ids[..j] + ids[j + 1..];
    assert ids == ids[..j] + [ids[j]] + ids[j + 1..];
    assert LinksFor(ids, sid) == LinksFor(rest, sid) by {
      assert ids[j] == rest[i];
      forall l | l in LinksFor(ids, sid) ensures l in LinksFor(rest, sid) {
        var k :| 0 <= k < |ids| && ids[k] == l.taskId;
        if k < j { assert rest[k] == ids[k]; }
        else if k == j { assert rest[i] == ids[k]; }
        else { assert rest[k - 1] == ids[k]; }
      }
    }
    LinksForBound(rest, sid);
  }

  lemma {:induction false} LinksForBound(ids: seq<int>, sid: int)
    ensures |LinksFor(ids, sid)| <= |ids|
  {
    if ids != [] {
      var init := ids[..|ids| - 1];
      LinksForBound(init, sid);
      assert LinksFor(ids, sid) == LinksFor(init, sid) + {Link(ids[|ids| - 1], sid)};
    }
  }

  /** The database session. */
  class Store {
    var tasks: map<int, Task>
    var schedules: map<int, Schedule>
    var links: set<Link>
    var analyses: map<int, TimeAnalysis>
    var nextTaskId: int       // the `task` id sequence
    var nextScheduleId: int   // the `schedule` id sequence

    /**
     * Ids come from their sequences, and the foreign keys hold: every link
     * joins a stored task to a stored schedule, every analysis has its task.
     */
    ghost predicate Valid()
      reads this
    {
      0 < nextTaskId && 0 < nextScheduleId &&
      (forall id :: id in tasks ==> 0 < id < nextTaskId) &&
      (forall id :: id in schedules ==> 0 < id < nextScheduleId) &&
      (forall l :: l in links ==> l.taskId in tasks && l.scheduleId in schedules) &&
      (forall a :: a in analyses ==> analyses[a].taskId in tasks)
    }

    /** An empty database. */
    constructor ()
      ensures Valid()
      ensures tasks == map[] && schedules == map[] && links == {} && analyses == map[]
    {
      tasks := map[];
      schedules := map[];
      links := {};
      analyses := map[];
      nextTaskId := 1;
      nextScheduleId := 1;
    }

    /** Task `id` exists and belongs to `user`. */
    predicate Owns(user: int, id: int)
      reads this
    {
      id in tasks && tasks[id].userId == user
    }

    predicate OwnsAll(user: int, ids: seq<int>)
      reads this
    {
      forall i :: 0 <= i < |ids| ==> Owns(user, ids[i])
    }

    /**
     * `create_schedule` reaches a task that is not the caller's before any
     * repeated id: the ids in front of that task are all different, so the
     * flushes of their links have all gone through.
     */
    predicate MissingBeforeRepeat(user: int, ids: seq<int>)
      reads this
    {
      exists k :: 0 <= k < |ids| && !Owns(user, ids[k]) && Distinct(ids[..k])
    }

    /** With no repeated id, the 404 case is exactly a task that is not the caller's. */
    lemma MissingBeforeRepeatOfDistinct(user: int, ids: seq<int>)
      requires Distinct(ids)
      ensures MissingBeforeRepeat(user, ids) <==> !OwnsAll(user, ids)
    {
      if !OwnsAll(user, ids) {
        var k :| 0 <= k < |ids| && !Owns(user, ids[k]);
        assert Distinct(ids[..k]);
      }
    }

    /** When every task is the caller's, the 404 case cannot arise. */
    lemma MissingBeforeRepeatOfOwned(user: int, ids: seq<int>)
      requires OwnsAll(user, ids)
      ensures !MissingBeforeRepeat(user, ids)
    {
    }

    /** Some time analysis refers to task `id`. */
    predicate Analysed(id: int)
      reads this
    {
      exists a :: a in analyses && analyses[a].taskId == id
    }

    /** `POST /tasks/`: store the task under a fresh id, owned by the caller whatever the body said. */
    method CreateTask(data: NewTask, user: int, now: Instant) returns (v: TaskView)
      requires Valid()
      modifies this
      ensures Valid()
      ensures v.id == old(nextTaskId) && v.id !in old(tasks) && nextTaskId == old(nextTaskId) + 1
      ensures tasks == old(tasks)[v.id := Task(data.title, data.description, data.priority,
                                               data.deadline, user, ACTIVE, now, now)]
      ensures v == ViewOf(v.id, tasks[v.id]) && v.userId == user
      ensures schedules == old(schedules) && links == old(links) && analyses == old(analyses)
      ensures nextScheduleId == old(nextScheduleId)
    {
      var id := nextTaskId;
      var t := Task(data.title, data.description, data.priority, data.deadline, user, ACTIVE, now, now);
      tasks := tasks[id := t];
      nextTaskId := nextTaskId + 1;
      v := ViewOf(id, t);
    }

    /** `GET /tasks/`: every stored task, whoever owns it. */
    function ReadTasks(): (r: set<TaskView>)
      reads this
      ensures forall id :: id in tasks ==> ViewOf(id, tasks[id]) in r
      ensures forall v :: v in r ==> v.id in tasks && v == ViewOf(v.id, tasks[v.id])
    {
      set id | id in tasks :: ViewOf(id, tasks[id])
    }

    /**
     * `POST /schedules/`: the schedule is committed first; then the listed
     * tasks are linked to it (`LinkTasks`).  On an error the links flushed
     * so far are rolled back and the schedule stays.
     */
    method CreateSchedule(date: Instant, taskIds: seq<int>, user: int) returns (r: Result<Instant, HttpError>)
      requires Valid()
      modifies this
      ensures Valid()
      ensures schedules == old(schedules)[old(nextScheduleId) := Schedule(date, user)]
      ensures old(nextScheduleId) !in old(schedules) && nextScheduleId == old(nextScheduleId) + 1
      ensures tasks == old(tasks) && analyses == old(analyses) && nextTaskId == old(nextTaskId)
      ensures r == Failure(NotFound) <==> MissingBeforeRepeat(user, taskIds)
      ensures r == Failure(InternalError) <==> !MissingBeforeRepeat(user, taskIds) && !Distinct(taskIds)
      ensures r.Success? <==> OwnsAll(user, taskIds) && Distinct(taskIds)
      ensures r.Success? ==> r.value == date && links == old(links) + LinksFor(taskIds, old(nextScheduleId))
      ensures r.Failure? ==> links == old(links)
    {
      var sid := nextScheduleId;
      schedules := schedules[sid := Schedule(date, user)];
      nextScheduleId := nextScheduleId + 1;
      var linked := LinkTasks(sid, taskIds, user);
      if linked.Failure? {
        return Failure(linked.error);
      }
      links := links + linked.value;
      return Success(date);
    }

    /**
     * The loop of `create_schedule` over the listed ids.  The query that
     * looks `taskIds[i]` up first flushes the link added for the previous
     * id (the session autoflushes), which fails on the link's primary key
     * when that id was listed before (500); then the task must exist and
     * belong to the caller (404).  The commit after the loop flushes the
     * last link the same way.  On success the result is the links added.
     */
    method LinkTasks(sid: int, taskIds: seq<int>, user: int) returns (r: Result<set<Link>, HttpError>)
      ensures r == Failure(NotFound) <==> MissingBeforeRepeat(user, taskIds)
      ensures r == Failure(InternalError) <==> !MissingBeforeRepeat(user, taskIds) && !Distinct(taskIds)
      ensures r.Success? <==> OwnsAll(user, taskIds) && Distinct(taskIds)
      ensures r.Success? ==> r.value == LinksFor(taskIds, sid)
    {
      var pending: set<Link> := {};
      var i := 0;
      while i < |taskIds|
        invariant 0 <= i <= |taskIds|
        invariant OwnsAll(user, taskIds[..i])
        invariant i > 0 ==> Distinct(taskIds[..i - 1])
        invariant pending == LinksFor(taskIds[..i], sid)
      {
        if i > 0 && taskIds[i - 1] in taskIds[..i - 1] {
          RepeatOutcome(user, taskIds, i);
          return Failure(InternalError);
        }
        if i > 0 {
          DistinctExtend(taskIds, i);
        }
        if !Owns(user, taskIds[i]) {
          MissingOutcome(user, taskIds, i);
          return Failure(NotFound);
        }
        assert taskIds[..i + 1] == taskIds[..i] + [taskIds[i]];
        pending := pending + {Link(taskIds[i], sid)};
        i := i + 1;
      }
      if i > 0 && taskIds[i - 1] in taskIds[..i - 1] {
        RepeatOutcome(user, taskIds, i);
        return Failure(InternalError);
      }
      if i > 0 {
        DistinctExtend(taskIds, i);
      }
      assert taskIds[..i] == taskIds;
      MissingBeforeRepeatOfOwned(user, taskIds);
      return Success(pending);
    }

    /**
     * A repeated id ahead of a task that is not the caller's is reported as
     * the 500 of the failed flush, not as the 404 of the missing task.
     */
    lemma RepeatReportedFirst(user: int, a: int, x: int)
      requires Owns(user, a) && !Owns(user, x)
      ensures !MissingBeforeRepeat(user, [a, a, x]) && !Distinct([a, a, x])
    {
      var ids := [a, a, x];
      assert ids[..2] == [a, a] && ids[..1] == [a];
      RepeatOutcome(user, ids, 2);
    }

    /**
     * The flush of the link for `ids[i - 1]`, listed before, fails: no task
     * the caller does not own came earlier, and the ids are not distinct.
     */
    lemma RepeatOutcome(user: int, ids: seq<int>, i: nat)
      requires 0 < i <= |ids| && OwnsAll(user, ids[..i]) && ids[i - 1] in ids[..i - 1]
      ensures !MissingBeforeRepeat(user, ids) && !Distinct(ids)
    {
      RepeatSpoils(ids, i);
      assert ids[..|ids|] == ids;
      forall k | 0 <= k < |ids| && Distinct(ids[..k]) ensures Owns(user, ids[k]) {
        assert k < i && ids[..i][k] == ids[k];
      }
    }

    /** The lookup of `ids[i]` misses after distinct ids: the 404 case. */
    lemma MissingOutcome(user: int, ids: seq<int>, i: nat)
      requires 0 <= i < |ids| && Distinct(ids[..i]) && !Owns(user, ids[i])
      ensures MissingBeforeRepeat(user, ids) && !OwnsAll(user, ids)
    {
    }

    /** The `ScheduleResponse` of a stored schedule: its tasks through the link table. */
    function ScheduleViewOf(sid: int): (v: ScheduleView)
      reads this
      requires sid in schedules
      ensures v.id == sid && v.date == schedules[sid].date
      ensures forall t :: t in v.tasks <==> exists l :: l in links && l.scheduleId == sid && l.taskId in tasks && t == ViewOf(l.taskId, tasks[l.taskId])
    {
      ScheduleView(sid, schedules[sid].date,
        set l | l in links && l.scheduleId == sid && l.taskId in tasks :: ViewOf(l.taskId, tasks[l.taskId]))
    }

    /** The ids of the caller's schedules. */
    function OwnedSchedules(user: int): (ids: set<int>)
      reads this
      ensures forall s :: s in ids <==> s in schedules && schedules[s].userId == user
    {
      set s | s in schedules && schedules[s].userId == user
    }

    /**
     * `GET /schedules/`: with a truthy `schedule_id`, that one schedule if
     * it is the caller's and 404 otherwise; with none (or 0), every schedule
     * of the caller, each once.
     */
    method ReadSchedules(scheduleId: Option<int>, user: int) returns (r: Result<seq<ScheduleView>, HttpError>)
      ensures scheduleId.Some? && scheduleId.value != 0 ==>
        (r.Success? <==> scheduleId.value in OwnedSchedules(user))
      ensures scheduleId.Some? && scheduleId.value != 0 && r.Success? ==>
        r.value == [ScheduleViewOf(scheduleId.value)]
      ensures r.Failure? ==> r.error == NotFound
      ensures scheduleId.None? || scheduleId.value == 0 ==> r.Success?
      ensures scheduleId.None? || scheduleId.value == 0 ==>
        (set v | v in r.value :: v.id) == OwnedSchedules(user) && |r.value| == |OwnedSchedules(user)|
      ensures r.Success? ==> forall v :: v in r.value ==> v.id in schedules && v == ScheduleViewOf(v.id)
    {
      if scheduleId.Some? && scheduleId.value != 0 {
        var sid := scheduleId.value;
        if sid !in schedules || schedules[sid].userId != user {
          return Failure(NotFound);
        }
        return Success([ScheduleViewOf(sid)]);
      }
      var owned := OwnedSchedules(user);
      var remaining := owned;
      var responses: seq<ScheduleView> := [];
      while remaining != {}
        invariant remaining <= owned
        invariant (set v | v in responses :: v.id) == owned - remaining
        invariant |responses| == |owned - remaining|
        invariant forall v :: v in responses ==> v.id in schedules && v == ScheduleViewOf(v.id)
        decreases |remaining|
      {
        ghost var some := Pick(remaining);
        var sid :| sid in remaining;
        var v := ScheduleViewOf(sid);
        IdsAppend(responses, v);
        MoveOne(owned, remaining, sid);
        responses := responses + [v];
        remaining := remaining - {sid};
      }
      return Success(responses);
    }

    /** `PATCH /tasks/{id}`: 404 if absent, 403 if someone else's, otherwise the patch. */
    method UpdateTask(taskId: int, p: TaskPatch, user: int, now: Instant) returns (r: Result<TaskView, HttpError>)
      requires Valid()
      modifies this
      ensures Valid()
      ensures r == Failure(NotFound) <==> taskId !in old(tasks)
      ensures r == Failure(Forbidden) <==> taskId in old(tasks) && old(tasks)[taskId].userId != user
      ensures r.Success? <==> taskId in old(tasks) && old(tasks)[taskId].userId == user
      ensures r.Failure? ==> tasks == old(tasks)
      ensures r.Success? ==> tasks == old(tasks)[taskId := Patch(old(tasks)[taskId], p, now)]
      ensures r.Success? ==> r.value == ViewOf(taskId, tasks[taskId])
      ensures schedules == old(schedules) && links == old(links) && analyses == old(analyses)
      ensures nextTaskId == old(nextTaskId) && nextScheduleId == old(nextScheduleId)
    {
      if taskId !in tasks {
        return Failure(NotFound);
      }
      if tasks[taskId].userId != user {
        return Failure(Forbidden);
      }
      var t := Patch(tasks[taskId], p, now);
      tasks := tasks[taskId := t];
      return Success(ViewOf(taskId, t));
    }

    /**
     * `DELETE /tasks/{id}`: 404 unless the caller owns the task; otherwise its
     * links and then the task are deleted in one commit, which the
     * `timeanalysis` foreign key refuses while an analysis refers to it.
     */
    method DeleteTask(taskId: int, user: int) returns (r: Result<(), HttpError>)
      requires Valid()
      modifies this
      ensures Valid()
      ensures r == Failure(NotFound) <==> !old(Owns(user, taskId))
      ensures r == Failure(InternalError) <==> old(Owns(user, taskId)) && old(Analysed(taskId))
      ensures r.Success? <==> old(Owns(user, taskId)) && !old(Analysed(taskId))
      ensures r.Failure? ==> tasks == old(tasks) && links == old(links)
      ensures r.Success? ==> tasks == old(tasks) - {taskId}
      ensures r.Success? ==> links == set l | l in old(links) && l.taskId != taskId
      ensures schedules == old(schedules) && analyses == old(analyses)
      ensures nextTaskId == old(nextTaskId) && nextScheduleId == old(nextScheduleId)
    {
      if !Owns(user, taskId) {
        return Failure(NotFound);
      }
      if Analysed(taskId) {
        return Failure(InternalError);
      }
      links := set l | l in links && l.taskId != taskId;
      tasks := tasks - {taskId};
      return Success(());
    }

    /**
     * `PATCH /time_analysis/{id}`: 404 if the analysis is absent, 403 if its
     * task is someone else's, 404 if the body names no stored task; then
     * only a given `time_spent` replaces the stored one (the body's
     * `task_id` is never assigned).
     */
    method UpdateTimeAnalysis(analysisId: int, p: AnalysisPatch, user: int) returns (r: Result<AnalysisView, HttpError>)
      requires Valid()
      modifies this
      ensures Valid()
      ensures analysisId !in old(analyses) ==> r == Failure(NotFound)
      ensures analysisId in old(analyses) ==>
        (r == Failure(Forbidden) <==> old(tasks)[old(analyses)[analysisId].taskId].userId != user)
      ensures analysisId in old(analyses) && old(tasks)[old(analyses)[analysisId].taskId].userId == user ==>
        (r == Failure(NotFound) <==> p.taskId !in old(tasks))
      ensures r.Success? <==>
        && analysisId in old(analyses)
        && old(tasks)[old(analyses)[analysisId].taskId].userId == user
        && p.taskId in old(tasks)
      ensures r.Failure? ==> analyses == old(analyses)
      ensures r.Success? ==>
        analyses == old(analyses)[analysisId := TimeAnalysis(old(analyses)[analysisId].taskId,
                                                             p.timeSpent.GetOr(old(analyses)[analysisId].timeSpent))]
      ensures r.Success? ==> r.value == AnalysisView(analysisId, analyses[analysisId].taskId, analyses[analysisId].timeSpent)
      ensures tasks == old(tasks) && schedules == old(schedules) && links == old(links)
      ensures nextTaskId == old(nextTaskId) && nextScheduleId == old(nextScheduleId)
    {
      if analysisId !in analyses {
        return Failure(NotFound);
      }
      var a := analyses[analysisId];
      if tasks[a.taskId].userId != user {
        return Failure(Forbidden);
      }
      if p.taskId !in tasks {
        return Failure(NotFound);
      }
      var updated := a.(timeSpent := p.timeSpent.GetOr(a.timeSpent));
      analyses := analyses[analysisId := updated];
      return Success(AnalysisView(analysisId, updated.taskId, updated.timeSpent));
    }
  }

  /** Appending a view adds its id to the ids listed. */
  lemma IdsAppend(vs: seq<ScheduleView>, v: ScheduleView)
    ensures (set w | w in vs + [v] :: w.id) == (set w | w in vs :: w.id) + {v.id}
  {
  }

  /** Moving one element from `remaining` to the done part grows the done part by one. */
  lemma MoveOne<T>(all: set<T>, remaining: set<T>, x: T)
    requires x in remaining && remaining <= all
    ensures all - (remaining - {x}) == (all - remaining) + {x}
    ensures |all - (remaining - {x})| == |all - remaining| + 1
  {
    assert x !in all - remaining;
  }

  /** Some element of a non-empty set. */
  lemma Pick<T>(s: set<T>) returns (x: T)
    requires s != {}
    ensures x in s
  {
    x :| x in s;
  }

  /** `read_tasks` lists each stored task exactly once. */
  lemma ReadTasksCount(s: Store)
    ensures |s.ReadTasks()| == |s.tasks|
  {
    var r := s.ReadTasks();
    var ids := s.tasks.Keys;
    assert r == set id | id in ids :: ViewOf(id, s.tasks[id]);
    ViewsCount(s.tasks, ids);
  }

  lemma {:induction false} ViewsCount(tasks: map<int, Task>, ids: set<int>)
    requires ids <= tasks.Keys
    ensures |set id | id in ids :: ViewOf(id, tasks[id])| == |ids|
    decreases |ids|
  {
    if ids != {} {
      var k := Pick(ids);
      var rest := ids - {k};
      ViewsCount(tasks, rest);
      var vs := set id | id in rest :: ViewOf(id, tasks[id]);
      assert (set id | id in ids :: ViewOf(id, tasks[id])) == vs + {ViewOf(k, tasks[k])};
      assert ViewOf(k, tasks[k]) !in vs;
    }
  }
}

=== FILE: batch_parser.dfy ===
/**
 * The batch scraper: `parse_data` reads at most ten incidents from one of the
 * two status pages and inserts them into the `task` table in one
 * transaction, committed when every insert succeeded and rolled back
 * otherwise.  Unlike the job worker, it keeps the VK deadline as a parsed
 * timestamp and the Yandex deadline as the raw `datetime` attribute.  The
 * browser and the database server are outside: the page arrives as a
 * sequence of `Incident`s, the rows whose insert raises and whether the
 * commit raises as inputs, and `NOW()` as the transaction's start time.
 */
module BatchParser {
  import opened Wrappers
  import opened Text
  import opened Timestamps
  import opened Incidents

  /** The loop stops after this many records. */
  const Cap: nat := 10

  /** The `deadline` value: a `datetime` for VK, the attribute as found (possibly None) for Yandex. */
  datatype Deadline = Stamp(at: DateTime) | Attribute(raw: Option<string>)

  /**
   * The time of day put into the VK date: the text after the single "в" (or
   * the whole range), stripped, cut to five characters and stripped again.
   * Two or more "в" make the unpacking `start_time, end_time = ...` raise.
   */
  function VkTime(timeRange: string): (r: Result<string, SkipReason>)
    ensures r.Failure? <==> Count(timeRange, 'в') >= 2
    ensures r.Failure? ==> r.error == BadTimeRange
    ensures 'в' !in timeRange ==> r == Success(Strip(Prefix(Strip(timeRange), 5)))
    ensures r.Success? ==> |r.value| <= 5
  {
    if 'в' in timeRange then
      var parts := SplitOn(timeRange, 'в');
      if |parts| != 2 then Failure(BadTimeRange)
      else Success(Strip(Prefix(Strip(parts[1]), 5)))
    else Success(Strip(Prefix(Strip(timeRange), 5)))
  }

  /** With exactly one "в", only the text after it matters. */
  lemma VkTimeAfterMarker(before: string, after: string)
    requires 'в' !in before && 'в' !in after
    ensures VkTime(before + "в" + after) == Success(Strip(Prefix(Strip(after), 5)))
  {
    SplitOnce(before, after, 'в');
    assert 'в' in before + "в" + after by {
      assert (before + "в" + after)[|before|] == 'в';
    }
  }

  /** A range that starts, after any whitespace, with a two-digit "HH:MM" and has no "в" yields that time. */
  lemma VkTimeOfClock(lead: string, hh: string, mm: string, rest: string)
    requires AllSpace(lead) && 'в' !in lead && 'в' !in rest
    requires |hh| == 2 && AllDigits(hh) && |mm| == 2 && AllDigits(mm)
    ensures VkTime(lead + (hh + ":" + mm) + rest) == Success(hh + ":" + mm)
  {
    var clock := hh + ":" + mm;
    DigitsArePlain(hh);
    DigitsArePlain(mm);
    assert clock[0] == hh[0] && clock[4] == mm[1];
    assert 'в' !in clock by {
      assert clock == hh + [':'] + mm;
    }
    assert 'в' !in lead + clock + rest;
    StripCutStrip(lead, clock, rest);
  }

  /** The VK deadline: `datetime.strptime` of the date built from the day, the month code and the time. */
  function VkDeadline(date: string, timeRange: string): Result<DateTime, SkipReason> {
    var dm :- VkDayMonth(date);
    var time :- VkTime(timeRange);
    match Strptime(VkDateText(dm.1, dm.0, time), Plain)
    case None => Failure(BadTimestamp)
    case Some(dt) => Success(dt)
  }

  /**
   * A VK deadline, once parsed, comes from a date whose month word the
   * mapping knows and a time range with at most one "в", and it is in 2024,
   * in the month of that code, at second 0 with no fraction, whatever else
   * the page said.
   */
  lemma VkDeadlineFields(date: string, timeRange: string)
    ensures var r := VkDeadline(date, timeRange);
      r.Success? ==>
        && VkDayMonth(date).Success? && VkTime(timeRange).Success?
        && r.value.year == 2024 && r.value.second == 0 && r.value.microsecond == 0
        && VkDayMonth(date).value.1 == Pad(r.value.month, 2)
  {
    var dm := VkDayMonth(date);
    var time := VkTime(timeRange);
    if dm.Success? && time.Success? {
      VkDayMonthFields(date, time.value);
    }
  }

  /**
   * The converse: a day of one or two digits that exists in the month,
   * whitespace, the month's name, and a range whose time is "H:M" on the
   * clock give that moment of 2024.
   */
  lemma VkDeadlineOfText(day: string, gap: string, m: int, timeRange: string, hh: string, mm: string)
    requires 1 <= m <= 12
    requires 1 <= |day| <= 2 && AllDigits(day) && 1 <= DigitsValue(day) <= DaysInMonth(2024, m)
    requires gap != [] && AllSpace(gap)
    requires 1 <= |hh| <= 2 && AllDigits(hh) && DigitsValue(hh) <= 23
    requires 1 <= |mm| <= 2 && AllDigits(mm) && DigitsValue(mm) <= 59
    requires VkTime(timeRange) == Success(hh + ":" + mm)
    ensures VkDeadline(day + (gap + MonthNames[m - 1]), timeRange)
         == Success(DateTime(2024, m, DigitsValue(day), DigitsValue(hh), DigitsValue(mm), 0, 0))
  {
    DigitsArePlain(day);
    VkDayMonthOfText(day, gap, m);
    VkDateTextParses(m, day, hh, mm);
  }

  /** The body of the per-incident `try`: a record, or the reason the incident is skipped. */
  function Extract(site: Site, inc: Incident, who: Assignee): Result<IncidentRecord<Deadline>, SkipReason> {
    if inc.title.None? then Failure(MissingTitle)
    else if inc.status.None? then Failure(MissingStatus)
    else
      var deadline :-
        if site == Vk then
          if inc.date.None? then Failure(MissingDate)
          else if inc.timeRange.None? then Failure(MissingTimeRange)
          else
            var dt :- VkDeadline(inc.date.value, inc.timeRange.value);
            Success(Stamp(dt))
        else
          if inc.deadline.None? then Failure(MissingDeadline)
          else Success(Attribute(inc.deadline.value));
      Success(IncidentRecord(inc.title.value, DescriptionOf(inc), PriorityOf(inc.status.value),
                             deadline, who, COMPLETED))
  }

  /** A Yandex incident is kept exactly when its title, status and deadline elements exist. */
  lemma YandexKeptIff(inc: Incident, who: Assignee)
    ensures Extract(Yandex, inc, who).Success? <==>
      inc.title.Some? && inc.status.Some? && inc.deadline.Some?
    ensures Extract(Yandex, inc, who).Success? ==>
      Extract(Yandex, inc, who).value.deadline == Attribute(inc.deadline.value)
  {
  }

  /**
   * A VK incident is kept exactly when its title, status, date and time
   * range elements exist and the date and range convert; its deadline is
   * that conversion.
   */
  lemma VkKeptIff(inc: Incident, who: Assignee)
    ensures Extract(Vk, inc, who).Success? <==>
      && inc.title.Some? && inc.status.Some? && inc.date.Some? && inc.timeRange.Some?
      && VkDeadline(inc.date.value, inc.timeRange.value).Success?
    ensures Extract(Vk, inc, who).Success? ==>
      Extract(Vk, inc, who).value.deadline == Stamp(VkDeadline(inc.date.value, inc.timeRange.value).value)
  {
    if inc.title.Some? && inc.status.Some? && inc.date.Some? && inc.timeRange.Some? {
      var d := VkDeadline(inc.date.value, inc.timeRange.value);
      assert Extract(Vk, inc, who) == if d.Failure? then Failure(d.error) else
        Success(IncidentRecord(inc.title.value, DescriptionOf(inc), PriorityOf(inc.status.value),
                               Stamp(d.value), who, COMPLETED));
    }
  }

  /** The outcome of every incident of the page, in page order. */
  function Outcomes(site: Site, page: seq<Incident>, assignees: seq<Assignee>): (o: seq<Result<IncidentRecord<Deadline>, SkipReason>>)
    requires |assignees| == |page|
    ensures |o| == |page|
    ensures forall i :: 0 <= i < |page| ==> o[i] == Extract(site, page[i], assignees[i])
  {
    seq(|page|, i requires 0 <= i < |page| => Extract(site, page[i], assignees[i]))
  }

  /** The scraping loop: the first ten incidents that extract, in page order. */
  method CollectIncidents(site: Site, page: seq<Incident>, assignees: seq<Assignee>)
    returns (data: seq<IncidentRecord<Deadline>>)
    requires |assignees| == |page|
    ensures data == Collect(Outcomes(site, page, assignees), Cap)
    ensures |data| <= Cap
  {
    ghost var outcomes := Outcomes(site, page, assignees);
    data := [];
    var successfulAdditions := 0;
    var i := 0;
    CollectInvariantInit(outcomes, Cap);
    while i < |page|
      invariant 0 <= i <= |page|
      invariant successfulAdditions == |data| < Cap
      invariant CollectInvariant(outcomes, i, data, Cap)
    {
      var outcome := Extract(site, page[i], assignees[i]);
      assert outcome == outcomes[i];
      CollectInvariantStep(outcomes, i, data, Cap);
      if outcome.Success? {
        data := data + [outcome.value];
        successfulAdditions := successfulAdditions + 1;
        if successfulAdditions >= Cap {
          CollectInvariantDone(outcomes, i + 1, data, Cap);
          return;
        }
      }
      i := i + 1;
    }
    CollectInvariantDone(outcomes, i, data, Cap);
  }

  /** A row of the `task` table written by the insert; `NOW()` fills both timestamps. */
  datatype TaskRow = TaskRow(
    title: string,
    description: string,
    priority: PriorityLevel,
    deadline: Deadline,
    userId: Assignee,
    status: TaskStatus,
    createdAt: int,
    updatedAt: int)

  /** The row inserted for `rec` in a transaction that started at `now`. */
  function RowOf(rec: IncidentRecord<Deadline>, now: int): TaskRow {
    TaskRow(rec.title, rec.description, rec.priority, rec.deadline, rec.userId, rec.status, now, now)
  }

  function Rows(data: seq<IncidentRecord<Deadline>>, now: int): (rows: seq<TaskRow>)
    ensures |rows| == |data|
    ensures forall i :: 0 <= i < |data| ==> rows[i] == RowOf(data[i], now)
  {
    seq(|data|, i requires 0 <= i < |data| => RowOf(data[i], now))
  }

  /** The incident a `task` row was inserted for: the row without its timestamps. */
  function RecordOf(row: TaskRow): IncidentRecord<Deadline> {
    IncidentRecord(row.title, row.description, row.priority, row.deadline, row.userId, row.status)
  }

  /**
   * The insert loses nothing: every record is read back from its row, and
   * every row of one batch carries the batch's single transaction time in
   * both timestamp columns.
   */
  lemma RowsRoundTrip(data: seq<IncidentRecord<Deadline>>, now: int)
    ensures forall i :: 0 <= i < |data| ==> RecordOf(Rows(data, now)[i]) == data[i]
    ensures forall row :: row in Rows(data, now) ==> row.createdAt == now && row.updatedAt == now
  {
    var rows := Rows(data, now);
    forall row | row in rows ensures row.createdAt == now && row.updatedAt == now {
      var i :| 0 <= i < |rows| && rows[i] == row;
    }
  }

  /**
   * The psycopg2 connection: the rows committed to `task`, and the rows
   * inserted by the open transaction, which become visible only on commit.
   */
  class Connection {
    var committed: seq<TaskRow>
    var pending: seq<TaskRow>

    constructor (rows: seq<TaskRow>)
      ensures committed == rows && pending == []
    {
      committed := rows;
      pending := [];
    }

    /** `cur.execute(INSERT ...)`; `fails` says whether the server rejects the row. */
    method Execute(row: TaskRow, fails: bool) returns (ok: bool)
      modifies this
      ensures ok == !fails
      ensures committed == old(committed)
      ensures pending == if fails then old(pending) else old(pending) + [row]
    {
      ok := !fails;
      if ok {
        pending := pending + [row];
      }
    }

    /** `conn.commit()`; `fails` says whether the server refuses it. */
    method Commit(fails: bool) returns (ok: bool)
      modifies this
      ensures ok == !fails
      ensures ok ==> committed == old(committed) + old(pending) && pending == []
      ensures !ok ==> committed == old(committed) && pending == old(pending)
    {
      ok := !fails;
      if ok {
        committed := committed + pending;
        pending := [];
      }
    }

    /** `conn.rollback()`: the open transaction's rows are discarded. */
    method Rollback()
      modifies this
      ensures committed == old(committed) && pending == []
    {
      pending := [];
    }
  }

  /**
   * The `try` around the inserts: every row is inserted, then the
   * transaction is committed; the first failure (an insert at an index in
   * `failing`, or the commit) rolls the whole batch back.
   */
  method InsertBatch(conn: Connection, data: seq<IncidentRecord<Deadline>>, failing: set<nat>,
                     commitFails: bool, now: int)
    returns (stored: bool)
    requires conn.pending == []
    modifies conn
    ensures stored <==> (forall i :: 0 <= i < |data| ==> i !in failing) && !commitFails
    ensures stored ==> conn.committed == old(conn.committed) + Rows(data, now)
    ensures !stored ==> conn.committed == old(conn.committed)
    ensures conn.pending == []
  {
    var i := 0;
    while i < |data|
      invariant 0 <= i <= |data|
      invariant forall k :: 0 <= k < i ==> k !in failing
      invariant conn.committed == old(conn.committed)
      invariant conn.pending == Rows(data, now)[..i]
    {
      var ok := conn.Execute(RowOf(data[i], now), i in failing);
      if !ok {
        conn.Rollback();
        return false;
      }
      assert Rows(data, now)[..i + 1] == Rows(data, now)[..i] + [RowOf(data[i], now)];
      i := i + 1;
    }
    assert Rows(data, now)[..i] == Rows(data, now);
    stored := conn.Commit(commitFails);
    if !stored {
      conn.Rollback();
    }
  }

  /** How `parse_data` ends: `KeyError` before anything happens, or the batch stored or rolled back. */
  datatype BatchRun = Raised(error: ScrapeError) | Finished(data: seq<IncidentRecord<Deadline>>, stored: bool)

  /** `parse_data(url)`: scrape, then insert the batch all-or-nothing. */
  method ParseData(url: string, page: seq<Incident>, assignees: seq<Assignee>,
                   conn: Connection, failing: set<nat>, commitFails: bool, now: int)
    returns (run: BatchRun)
    requires |assignees| == |page|
    requires conn.pending == []
    modifies conn
    ensures run.Raised? <==> SiteOf(url).None?
    ensures run.Raised? ==> conn.committed == old(conn.committed)
    ensures run.Finished? ==> run.data == Collect(Outcomes(SiteOf(url).value, page, assignees), Cap)
    ensures run.Finished? ==> (run.stored <==> (forall i :: 0 <= i < |run.data| ==> i !in failing) && !commitFails)
    ensures run.Finished? && run.stored ==> conn.committed == old(conn.committed) + Rows(run.data, now)
    ensures run.Finished? && !run.stored ==> conn.committed == old(conn.committed)
    ensures conn.pending == []
  {
    var site := SiteOf(url);
    if site.None? {
      return Raised(UnknownUrl);
    }
    var data := CollectIncidents(site.value, page, assignees);
    var stored := InsertBatch(conn, data, failing, commitFails, now);
    run := Finished(data, stored);
  }
}

=== FILE: incidents.dfy ===
/**
 * What the two status-page scrapers share: the incident as the page
 * presents it, the site table, the month names, the priority rule, and the
 * bounded accumulation loop that keeps the first successfully extracted
 * incidents of a page.
 */
module Incidents {
  import opened Wrappers
  import opened Text
  import opened Timestamps

  /** `PriorityLevel` and `TaskStatus` of the task models. */
  datatype PriorityLevel = LOW | MEDIUM | HIGH | CRITICAL
  datatype TaskStatus = ACTIVE | COMPLETED | DEFERRED

  /** The user a scraped incident is assigned to: `random.randint(1, 3)`. */
  type Assignee = x: int | 1 <= x <= 3 witness 1

  /**
   * One incident container on the page, as the CSS selectors see it.  A field
   * is `None` when its element is not found (`NoSuchElementException`);
   * `deadline` is the Yandex deadline element, holding its `datetime`
   * attribute, itself `None` when the attribute is absent.
   */
  datatype Incident = Incident(
    title: Option<string>,
    description: Option<string>,
    status: Option<string>,
    date: Option<string>,
    timeRange: Option<string>,
    deadline: Option<Option<string>>)

  /** The two keys of `css_elements`. */
  datatype Site = Vk | Yandex

  const VkUrl: string := "https://status.msk.cloud.vk.com/incidents"
  const YandexUrl: string := "https://status.yandex.cloud/ru/timeline"

  /** `css_elements[url]`: only the two known pages have selectors; any other URL raises `KeyError`. */
  function SiteOf(url: string): (r: Option<Site>)
    ensures r == Some(Vk) <==> url == VkUrl
    ensures r == Some(Yandex) <==> url == YandexUrl
    ensures r == None <==> url != VkUrl && url != YandexUrl
  {
    if url == VkUrl then Some(Vk) else if url == YandexUrl then Some(Yandex) else None
  }

  /** Why an incident was dropped: the exception the per-incident `try` caught. */
  datatype SkipReason =
    | MissingTitle | MissingStatus | MissingDate | MissingTimeRange | MissingDeadline
    | MalformedDate      // fewer than two words in the date text (IndexError)
    | UnknownMonth       // second word not a month name (KeyError)
    | BadTimeRange       // more than one "в" in the time range (unpacking ValueError)
    | BadTimestamp       // strptime raised ValueError
    | MissingAttribute   // no `datetime` attribute: strptime got None (TypeError)

  const DescriptionSentinel: string := "Description not found"

  /** The description text, or the sentinel when the element is missing. */
  function DescriptionOf(inc: Incident): (d: string)
    ensures inc.description.None? ==> d == DescriptionSentinel
    ensures inc.description.Some? ==> d == inc.description.value
  {
    inc.description.GetOr(DescriptionSentinel)
  }

  /** `"LOW" if status.strip() == "Resolved" else "HIGH"`. */
  function PriorityOf(statusText: string): (p: PriorityLevel)
    ensures p == LOW <==> Strip(statusText) == "Resolved"
    ensures p == HIGH <==> Strip(statusText) != "Resolved"
  {
    if Strip(statusText) == "Resolved" then LOW else HIGH
  }

  /** The Russian month names in the genitive, January first. */
  const MonthNames: seq<string> := [
    "января", "февраля", "марта", "апреля", "мая", "июня",
    "июля", "августа", "сентября", "октября", "ноября", "декабря"]

  /** `months_mapping`. */
  const MonthCodes: map<string, string> := map[
    "января" := "01", "февраля" := "02", "марта" := "03", "апреля" := "04",
    "мая" := "05", "июня" := "06", "июля" := "07", "августа" := "08",
    "сентября" := "09", "октября" := "10", "ноября" := "11", "декабря" := "12"]

  /** The mapping sends the m-th month name to m written with two digits, and knows no other word. */
  lemma MonthCodesOfNames()
    ensures MonthCodes.Keys == set m | 0 <= m < 12 :: MonthNames[m]
    ensures forall m :: 1 <= m <= 12 ==> MonthCodes[MonthNames[m - 1]] == Pad(m, 2)
  {
    MonthCodeKeys();
    forall m | 1 <= m <= 12 ensures MonthCodes[MonthNames[m - 1]] == Pad(m, 2) {
      MonthCodeOfName(m);
    }
  }

  /** The mapping's words are exactly the twelve month names. */
  lemma MonthCodeKeys()
    ensures MonthCodes.Keys == set m | 0 <= m < 12 :: MonthNames[m]
  {
    assert MonthCodes.Keys == set m | 0 <= m < 12 :: MonthNames[m] by {
      forall w | w in MonthCodes.Keys ensures w in set m | 0 <= m < 12 :: MonthNames[m] {
        if w == "января" { assert w == MonthNames[0]; }
        else if w == "февраля" { assert w == MonthNames[1]; }
        else if w == "марта" { assert w == MonthNames[2]; }
        else if w == "апреля" { assert w == MonthNames[3]; }
        else if w == "мая" { assert w == MonthNames[4]; }
        else if w == "июня" { assert w == MonthNames[5]; }
        else if w == "июля" { assert w == MonthNames[6]; }
        else if w == "августа" { assert w == MonthNames[7]; }
        else if w == "сентября" { assert w == MonthNames[8]; }
        else if w == "октября" { assert w == MonthNames[9]; }
        else if w == "ноября" { assert w == MonthNames[10]; }
        else { assert w == MonthNames[11]; }
      }
    }
  }

  lemma MonthCodeOfName(m: int)
    requires 1 <= m <= 12
    ensures MonthNames[m - 1] in MonthCodes && MonthCodes[MonthNames[m - 1]] == Pad(m, 2)
  {
    if m < 10 {
      SingleDigitCode(m);
    } else {
      TwoDigitCode(m);
    }
  }

  lemma SingleDigitCode(m: int)
    requires 1 <= m <= 9
    ensures MonthNames[m - 1] in MonthCodes && MonthCodes[MonthNames[m - 1]] == Pad(m, 2)
  {
    assert Pad(m, 2) == Pad(0, 1) + [DigitChar(m)];
    assert Pad(0, 1) == "0";
  }

  lemma TwoDigitCode(m: int)
    requires 10 <= m <= 12
    ensures MonthNames[m - 1] in MonthCodes && MonthCodes[MonthNames[m - 1]] == Pad(m, 2)
  {
    assert Pad(m, 2) == Pad(1, 1) + [DigitChar(m % 10)];
    assert Pad(1, 1) == "1";
  }

  /**
   * `date.split()`, `date_parts[0]` and `months_mapping[date_parts[1]]`: the
   * day text and the two-digit month code of a VK date such as "12 марта".
   */
  function VkDayMonth(date: string): (r: Result<(string, string), SkipReason>)
    ensures r.Failure? ==> r.error == MalformedDate || r.error == UnknownMonth
    ensures r == Failure(MalformedDate) <==> |Words(date)| < 2
    ensures r == Failure(UnknownMonth) <==> |Words(date)| >= 2 && Words(date)[1] !in MonthCodes
    ensures r.Success? ==> r.value == (Words(date)[0], MonthCodes[Words(date)[1]])
    ensures r.Success? ==> r.value.1 in MonthCodes.Values && NoSpace(r.value.0) && r.value.0 != []
  {
    var parts := Words(date);
    if |parts| < 2 then Failure(MalformedDate)
    else if parts[1] !in MonthCodes then Failure(UnknownMonth)
    else Success((parts[0], MonthCodes[parts[1]]))
  }

  predicate CyrillicLower(w: string) {
    forall k :: 0 <= k < |w| ==> 'а' <= w[k] <= 'я'
  }

  /** Every month name is one word: non-empty, lower-case Cyrillic, hence free of whitespace. */
  lemma MonthNameIsWord(m: nat)
    requires m < 12
    ensures MonthNames[m] != [] && NoSpace(MonthNames[m])
  {
    assert CyrillicLower(MonthNames[m]);
    forall k | 0 <= k < |MonthNames[m]| ensures !IsSpace(MonthNames[m][k]) {
      CyrillicIsNotSpace(MonthNames[m][k]);
    }
  }

  lemma CyrillicIsNotSpace(c: char)
    requires 'а' <= c <= 'я'
    ensures !IsSpace(c)
  {
  }

  /** Every word the mapping knows is the name of one month, and maps to that month's number. */
  lemma MonthOfCode(w: string) returns (m: int)
    requires w in MonthCodes
    ensures 1 <= m <= 12 && MonthNames[m - 1] == w && MonthCodes[w] == Pad(m, 2)
  {
    MonthCodesOfNames();
    var k :| 0 <= k < 12 && MonthNames[k] == w;
    m := k + 1;
  }

  /** A day, whitespace and the m-th month name yield that day and m written with two digits. */
  lemma VkDayMonthOfText(day: string, gap: string, m: int)
    requires day != [] && NoSpace(day) && gap != [] && AllSpace(gap)
    requires 1 <= m <= 12
    ensures VkDayMonth(day + (gap + MonthNames[m - 1])) == Success((day, Pad(m, 2)))
  {
    var name := MonthNames[m - 1];
    MonthNameIsWord(m - 1);
    WordsOfPair(day, gap, name);
    MonthCodeOfName(m);
  }

  /** Digit text holds neither whitespace nor the letter "в". */
  lemma DigitsArePlain(ds: string)
    requires AllDigits(ds)
    ensures NoSpace(ds) && 'в' !in ds
  {
    forall k | 0 <= k < |ds| ensures !IsSpace(ds[k]) && ds[k] != 'в' {
      assert IsDigit(ds[k]);
    }
  }

  /** The string handed to `strptime`: `f"{year}-{month}-{day} {end_time}:00.000"` with year 2024. */
  function VkDateText(code: string, day: string, time: string): string {
    ("2024-" + code + "-") + (day + " " + time) + ":00.000"
  }

  /**
   * Whatever the day and time text, a VK date that parses lies in 2024, in
   * the month whose code was used, at second 0 with no fraction: the
   * template fixes those fields.
   */
  lemma VkDateTextFields(m: int, day: string, time: string)
    requires 1 <= m <= 12
    ensures var r := Strptime(VkDateText(Pad(m, 2), day, time), Plain);
      r.Some? ==> r.value.year == 2024 && r.value.month == m && r.value.second == 0 && r.value.microsecond == 0
  {
    var text := VkDateText(Pad(m, 2), day, time);
    VkDateTextTokens(Pad(m, 2), day, time);
    StrptimeFields(text, Plain);
    if Strptime(text, Plain).Some? {
      var t := Scan(text);
      PadValue(2024, 4);
      PadValue(m, 2);
      PadValue(0, 2);
      PadValue(0, 3);
      ZeroFraction(t[12].ds);
    }
  }

  /**
   * The converse: a day of one or two digits that exists in the month, and
   * a time of one- or two-digit hours and minutes on the clock, parse to
   * that moment of 2024.
   */
  lemma VkDateTextParses(m: int, day: string, hh: string, mm: string)
    requires 1 <= m <= 12
    requires 1 <= |day| <= 2 && AllDigits(day) && 1 <= DigitsValue(day) <= DaysInMonth(2024, m)
    requires 1 <= |hh| <= 2 && AllDigits(hh) && DigitsValue(hh) <= 23
    requires 1 <= |mm| <= 2 && AllDigits(mm) && DigitsValue(mm) <= 59
    ensures Strptime(VkDateText(Pad(m, 2), day, hh + ":" + mm), Plain)
         == Some(DateTime(2024, m, DigitsValue(day), DigitsValue(hh), DigitsValue(mm), 0, 0))
  {
    var text := VkDateText(Pad(m, 2), day, hh + ":" + mm);
    VkClockTokens(Pad(m, 2), day, hh, mm);
    VkTokensParse(text, m, day, hh, mm);
  }

  /** Text that scans to the VK template's tokens parses to the moment they spell. */
  lemma VkTokensParse(text: string, m: int, day: string, hh: string, mm: string)
    requires 1 <= m <= 12
    requires 1 <= |day| <= 2 && AllDigits(day) && 1 <= DigitsValue(day) <= DaysInMonth(2024, m)
    requires 1 <= |hh| <= 2 && AllDigits(hh) && DigitsValue(hh) <= 23
    requires 1 <= |mm| <= 2 && AllDigits(mm) && DigitsValue(mm) <= 59
    requires PlainTokens(Scan(text), Pad(2024, 4), Pad(m, 2), day, hh, mm, Pad(0, 2), Pad(0, 3))
    ensures Strptime(text, Plain) == Some(DateTime(2024, m, DigitsValue(day), DigitsValue(hh), DigitsValue(mm), 0, 0))
  {
    TemplateValues(m);
    ZeroFraction(Pad(0, 3));
    var dt := DateTime(2024, m, DigitsValue(day), DigitsValue(hh), DigitsValue(mm), 0, 0);
    PlainTokensParse(text, Pad(2024, 4), Pad(m, 2), day, hh, mm, Pad(0, 2), Pad(0, 3), dt);
  }

  /** The numbers the VK template's fixed digits spell. */
  lemma TemplateValues(m: int)
    requires 1 <= m <= 12
    ensures DigitsValue(Pad(2024, 4)) == 2024 && DigitsValue(Pad(m, 2)) == m
    ensures DigitsValue(Pad(0, 2)) == 0 && DigitsValue(Pad(0, 3)) == 0
  {
    assert Pow10(2) == 100 && Pow10(4) == 10000;
    PadValue(2024, 4);
    PadValue(m, 2);
    PadValue(0, 2);
    PadValue(0, 3);
  }

  /** The VK template around a day and an "H:M" time scans to the plain layout's thirteen tokens. */
  lemma VkClockTokens(code: string, day: string, hh: string, mm: string)
    requires |code| == 2 && AllDigits(code)
    requires day != [] && AllDigits(day) && hh != [] && AllDigits(hh) && mm != [] && AllDigits(mm)
    ensures PlainTokens(Scan(VkDateText(code, day, hh + ":" + mm)), Pad(2024, 4), code, day, hh, mm, Pad(0, 2), Pad(0, 3))
  {
    var a := "2024-" + code + "-";
    var x := day + " " + (hh + ":" + mm);
    var b := ":00.000";
    assert VkDateText(code, day, hh + ":" + mm) == a + x + b;
    assert a[|a| - 1] == '-' && b[0] == ':';
    TemplateTokens(code);
    ScanAround(a, x, b);
    ClockTokens(day, hh, mm);
    Thirteen(Scan(a), Scan(x), Scan(b));
  }

  /** Where the elements of four, five and four elements laid end to end land. */
  lemma Thirteen<T>(h: seq<T>, m: seq<T>, tl: seq<T>)
    requires |h| == 4 && |m| == 5 && |tl| == 4
    ensures var t := h + m + tl;
      && |t| == 13
      && t[0] == h[0] && t[1] == h[1] && t[2] == h[2] && t[3] == h[3]
      && t[4] == m[0] && t[5] == m[1] && t[6] == m[2] && t[7] == m[3] && t[8] == m[4]
      && t[9] == tl[0] && t[10] == tl[1] && t[11] == tl[2] && t[12] == tl[3]
  {
  }

  /** A day, a space and an "H:M" time scan to five tokens. */
  lemma ClockTokens(day: string, hh: string, mm: string)
    requires day != [] && AllDigits(day) && hh != [] && AllDigits(hh) && mm != [] && AllDigits(mm)
    ensures Scan(day + " " + (hh + ":" + mm)) == [Digits(day), Sep(' '), Digits(hh), Sep(':'), Digits(mm)]
  {
    var ts := [Digits(day), Sep(' '), Digits(hh), Sep(':'), Digits(mm)];
    UnscanFive(day, ' ', hh, ':', mm);
    ClockText(day, hh, mm);
    ClockAlternating(day, hh, mm);
    ScanUnscan(ts);
  }

  lemma ClockText(day: string, hh: string, mm: string)
    ensures day + " " + (hh + ":" + mm) == day + [' '] + hh + [':'] + mm
  {
  }

  lemma ClockAlternating(day: string, hh: string, mm: string)
    requires day != [] && AllDigits(day) && hh != [] && AllDigits(hh) && mm != [] && AllDigits(mm)
    ensures Alternating([Digits(day), Sep(' '), Digits(hh), Sep(':'), Digits(mm)])
  {
    var ts := [Digits(day), Sep(' '), Digits(hh), Sep(':'), Digits(mm)];
    assert !IsDigit(' ') && !IsDigit(':');
    assert forall i :: 0 <= i < |ts| ==> WellFormed(ts[i]);
  }

  /**
   * The VK date-time built from a date and any time text: in 2024, in the
   * month the date names (whose code was used), at second 0 with no fraction.
   */
  lemma VkDayMonthFields(date: string, time: string)
    ensures var dm := VkDayMonth(date);
      dm.Success? && Strptime(VkDateText(dm.value.1, dm.value.0, time), Plain).Some? ==>
        var dt := Strptime(VkDateText(dm.value.1, dm.value.0, time), Plain).value;
        && dt.year == 2024 && dt.second == 0 && dt.microsecond == 0
        && |Words(date)| >= 2 && Words(date)[1] in MonthCodes
        && MonthCodes[Words(date)[1]] == dm.value.1 == Pad(dt.month, 2)
  {
    var dm := VkDayMonth(date);
    if dm.Success? {
      var m := MonthNumber(dm.value.1);
      VkDateTextFields(m, dm.value.0, time);
    }
  }

  /** Every code of the mapping is the two-digit number of one month. */
  lemma MonthNumber(code: string) returns (m: int)
    requires code in MonthCodes.Values
    ensures 1 <= m <= 12 && code == Pad(m, 2)
  {
    var w :| w in MonthCodes && MonthCodes[w] == code;
    m := MonthOfCode(w);
  }

  /** A fraction of zero digits is zero microseconds, whatever its length. */
  lemma ZeroFraction(ds: string)
    requires AllDigits(ds) && |ds| <= 6 && DigitsValue(ds) == 0
    ensures DigitsValue(ds) * Pow10(6 - |ds|) == 0
  {
  }

  /**
   * The template's tokens: its fixed pieces around whatever the day and
   * time text scan to; with the plain layout's thirteen tokens, the year,
   * the month, the second and the fraction are the template's own.
   */
  lemma VkDateTextTokens(code: string, day: string, time: string)
    requires |code| == 2 && AllDigits(code)
    ensures var t := Scan(VkDateText(code, day, time));
      |t| == 13 ==>
        && t[0] == Digits(Pad(2024, 4)) && t[2] == Digits(code)
        && t[10] == Digits(Pad(0, 2)) && t[12] == Digits(Pad(0, 3))
  {
    var a := "2024-" + code + "-";
    var x := day + " " + time;
    var b := ":00.000";
    TemplateTokens(code);
    ScanAround(a, x, b);
    FrameIndices(Scan(a), Scan(x), Scan(b));
  }

  /** In four tokens, a middle and four tokens that make thirteen, the fixed tokens keep their places. */
  lemma FrameIndices<T>(h: seq<T>, m: seq<T>, tl: seq<T>)
    requires |h| == 4 && |tl| == 4
    ensures var t := h + m + tl;
      |t| == 13 ==> t[0] == h[0] && t[2] == h[2] && t[10] == tl[1] && t[12] == tl[3]
  {
  }

  /** Scanning a text whose outer pieces end and start with separators scans the three pieces apart. */
  lemma ScanAround(a: string, x: string, b: string)
    requires a != [] && !IsDigit(a[|a| - 1])
    requires b != [] && !IsDigit(b[0])
    ensures Scan(a + x + b) == Scan(a) + Scan(x) + Scan(b)
  {
    ScanConcat(a, x);
    ScanConcat(a + x, b);
  }

  /** The fixed pieces of the VK template, cut into tokens. */
  lemma TemplateTokens(code: string)
    requires |code| == 2 && AllDigits(code)
    ensures Scan("2024-" + code + "-") == [Digits(Pad(2024, 4)), Sep('-'), Digits(code), Sep('-')]
    ensures Scan(":00.000") == [Sep(':'), Digits(Pad(0, 2)), Sep('.'), Digits(Pad(0, 3))]
  {
    TemplateHead(code);
    TemplateTail();
  }

  lemma TemplateHead(code: string)
    requires |code| == 2 && AllDigits(code)
    ensures Scan("2024-" + code + "-") == [Digits(Pad(2024, 4)), Sep('-'), Digits(code), Sep('-')]
  {
    ScanDigitsSep(Pad(2024, 4), '-', code, '-');
    TemplateHeadText(code);
  }

  lemma TemplateHeadText(code: string)
    ensures Pad(2024, 4) + ['-'] + code + ['-'] == "2024-" + code + "-"
  {
    TemplateNumbers();
  }

  lemma TemplateTail()
    ensures Scan(":00.000") == [Sep(':'), Digits(Pad(0, 2)), Sep('.'), Digits(Pad(0, 3))]
  {
    ScanSepDigits(':', Pad(0, 2), '.', Pad(0, 3));
    TemplateTailText();
  }

  lemma TemplateTailText()
    ensures [':'] + Pad(0, 2) + ['.'] + Pad(0, 3) == ":00.000"
  {
    TemplateNumbers();
  }

  /** A digit run, a separator, a digit run and a separator scan to those four tokens. */
  lemma ScanDigitsSep(a: string, c1: char, b: string, c2: char)
    requires a != [] && AllDigits(a) && b != [] && AllDigits(b) && !IsDigit(c1) && !IsDigit(c2)
    ensures Scan(a + [c1] + b + [c2]) == [Digits(a), Sep(c1), Digits(b), Sep(c2)]
  {
    var ts := [Digits(a), Sep(c1), Digits(b), Sep(c2)];
    UnscanFour(ts);
    ScanUnscan(ts);
  }

  /** A separator, a digit run, a separator and a digit run scan to those four tokens. */
  lemma ScanSepDigits(c1: char, a: string, c2: char, b: string)
    requires a != [] && AllDigits(a) && b != [] && AllDigits(b) && !IsDigit(c1) && !IsDigit(c2)
    ensures Scan([c1] + a + [c2] + b) == [Sep(c1), Digits(a), Sep(c2), Digits(b)]
  {
    var ts := [Sep(c1), Digits(a), Sep(c2), Digits(b)];
    UnscanFour(ts);
    ScanUnscan(ts);
  }

  lemma TemplateNumbers()
    ensures Pad(2024, 4) == "2024" && Pad(0, 2) == "00" && Pad(0, 3) == "000"
  {
    assert Pad(2, 1) == "2";
    assert Pad(20, 2) == "20";
    assert Pad(202, 3) == "202";
    assert Pad(0, 1) == "0";
  }

  lemma UnscanFour(ts: seq<Token>)
    requires |ts| == 4
    ensures Unscan(ts) == TokenText(ts[0]) + TokenText(ts[1]) + TokenText(ts[2]) + TokenText(ts[3])
  {
    UnscanStep(ts, 3);
    UnscanStep(ts, 2);
    UnscanStep(ts, 1);
    UnscanStep(ts, 0);
    assert ts[0..] == ts && ts[4..] == [];
    AppendFour(TokenText(ts[0]), TokenText(ts[1]), TokenText(ts[2]), TokenText(ts[3]));
  }

  lemma AppendFour<T>(a: seq<T>, b: seq<T>, c: seq<T>, d: seq<T>)
    ensures a + (b + (c + (d + []))) == a + b + c + d
  {
    assert d + [] == d;
  }

  /** `css_elements[url]` raised `KeyError`: the URL is not one of the two status pages. */
  datatype ScrapeError = UnknownUrl

  /** A scraped incident ready for the task table (`deadline` differs between the scrapers). */
  datatype IncidentRecord<D> = IncidentRecord(
    title: string,
    description: string,
    priority: PriorityLevel,
    deadline: D,
    userId: Assignee,
    status: TaskStatus)

  /**
   * The accumulation loop's result: the extracted incidents in page order,
   * dropping failures, and stopping as soon as `cap` have been kept.
   */
  function Collect<T, E>(outcomes: seq<Result<T, E>>, cap: nat): (r: seq<T>)
    ensures |r| <= cap
    ensures |r| <= |outcomes|
  {
    if outcomes == [] || cap == 0 then []
    else match outcomes[0]
      case Success(v) => [v] + Collect(outcomes[1..], cap - 1)
      case Failure(_) => Collect(outcomes[1..], cap)
  }

  /** One iteration of the accumulation loop, read off `Collect`. */
  lemma CollectStep<T, E>(outcomes: seq<Result<T, E>>, i: nat, cap: nat)
    requires i < |outcomes| && cap > 0
    ensures Collect(outcomes[i..], cap) ==
      if outcomes[i].Success? then [outcomes[i].value] + Collect(outcomes[i + 1..], cap - 1)
      else Collect(outcomes[i + 1..], cap)
  {
    assert outcomes[i..][0] == outcomes[i] && outcomes[i..][1..] == outcomes[i + 1..];
  }

  /**
   * The loop's invariant: the records kept so far, followed by what the rest
   * of the page would add within the remaining room, are the final result.
   */
  ghost predicate CollectInvariant<T, E>(outcomes: seq<Result<T, E>>, i: nat, kept: seq<T>, cap: nat)
    requires i <= |outcomes| && |kept| <= cap
  {
    kept + Collect(outcomes[i..], cap - |kept|) == Collect(outcomes, cap)
  }

  /** The invariant holds before the first incident. */
  lemma CollectInvariantInit<T, E>(outcomes: seq<Result<T, E>>, cap: nat)
    ensures CollectInvariant(outcomes, 0, [], cap)
  {
    assert outcomes[0..] == outcomes;
  }

  /** Handling incident `i` (appending it when it extracted) keeps the invariant. */
  lemma CollectInvariantStep<T, E>(outcomes: seq<Result<T, E>>, i: nat, kept: seq<T>, cap: nat)
    requires i < |outcomes| && |kept| < cap
    requires CollectInvariant(outcomes, i, kept, cap)
    ensures outcomes[i].Success? ==> CollectInvariant(outcomes, i + 1, kept + [outcomes[i].value], cap)
    ensures outcomes[i].Failure? ==> CollectInvariant(outcomes, i + 1, kept, cap)
  {
    CollectStep(outcomes, i, cap - |kept|);
    if outcomes[i].Success? {
      var v := outcomes[i].value;
      assert kept + ([v] + Collect(outcomes[i + 1..], cap - |kept| - 1)) ==
             (kept + [v]) + Collect(outcomes[i + 1..], cap - |kept| - 1);
    }
  }

  /** Once the room is used up, or the page is exhausted, the records kept are the result. */
  lemma CollectInvariantDone<T, E>(outcomes: seq<Result<T, E>>, i: nat, kept: seq<T>, cap: nat)
    requires i <= |outcomes| && |kept| <= cap
    requires CollectInvariant(outcomes, i, kept, cap)
    requires i == |outcomes| || |kept| == cap
    ensures kept == Collect(outcomes, cap)
  {
    assert Collect(outcomes[i..], cap - |kept|) == [];
    assert kept + [] == kept;
  }

  /** Every successful extraction, in page order, with no cap: the reference for `Collect`. */
  function Survivors<T, E>(outcomes: seq<Result<T, E>>): (r: seq<T>)
    ensures |r| <= |outcomes|
  {
    if outcomes == [] then []
    else match outcomes[0]
      case Success(v) => [v] + Survivors(outcomes[1..])
      case Failure(_) => Survivors(outcomes[1..])
  }

  function Min(a: nat, b: nat): nat {
    if a < b then a else b
  }

  /** The loop keeps exactly the first `cap` survivors (all of them if there are fewer). */
  lemma {:induction false} CollectIsCappedSurvivors<T, E>(outcomes: seq<Result<T, E>>, cap: nat)
    ensures Collect(outcomes, cap) == Survivors(outcomes)[..Min(cap, |Survivors(outcomes)|)]
  {
    if outcomes != [] && cap != 0 {
      CollectIsCappedSurvivors(outcomes[1..], if outcomes[0].Success? then cap - 1 else cap);
    }
  }

  lemma {:induction false} SurvivorsConcat<T, E>(a: seq<Result<T, E>>, b: seq<Result<T, E>>)
    ensures Survivors(a + b) == Survivors(a) + Survivors(b)
  {
    if a == [] {
      assert a + b == b;
    } else {
      assert (a + b)[1..] == a[1..] + b;
      SurvivorsConcat(a[1..], b);
    }
  }

  /** A skipped incident does not stop the loop: removing it changes nothing in the result. */
  lemma SkipIsInvisible<T, E>(outcomes: seq<Result<T, E>>, k: nat, cap: nat)
    requires k < |outcomes| && outcomes[k].Failure?
    ensures Collect(outcomes, cap) == Collect(outcomes[..k] + outcomes[k + 1..], cap)
  {
    assert outcomes == outcomes[..k] + [outcomes[k]] + outcomes[k + 1..];
    SurvivorsConcat(outcomes[..k] + [outcomes[k]], outcomes[k + 1..]);
    SurvivorsConcat(outcomes[..k], [outcomes[k]]);
    SurvivorsConcat(outcomes[..k], outcomes[k + 1..]);
    assert Survivors([outcomes[k]]) == [];
    CollectIsCappedSurvivors(outcomes, cap);
    CollectIsCappedSurvivors(outcomes[..k] + outcomes[k + 1..], cap);
  }

  /** On a page where every incident extracts, the loop keeps min(N, cap) of them, in order. */
  lemma {:induction false} CollectAllSucceed<T, E>(outcomes: seq<Result<T, E>>, cap: nat)
    requires forall i :: 0 <= i < |outcomes| ==> outcomes[i].Success?
    ensures |Collect(outcomes, cap)| == Min(|outcomes|, cap)
    ensures forall i :: 0 <= i < |Collect(outcomes, cap)| ==> Collect(outcomes, cap)[i] == outcomes[i].value
  {
    if outcomes != [] && cap != 0 {
      CollectAllSucceed(outcomes[1..], cap - 1);
    }
  }
}

=== FILE: memory_tasks.dfy ===
/**
 * The first version of the task service, which keeps its tasks in a
 * module-level list (`temp_db_tasks`) instead of a database.  A task is a
 * dictionary; a key missing from it (the `time_spent` of a created task) is
 * `None` here.
 */
module MemoryTasks {
  import opened Wrappers
  import opened Timestamps
  import opened Incidents

  /** A task dictionary of the list. */
  datatype Entry = Entry(
    id: int,
    title: string,
    description: string,
    deadline: DateTime,
    priority: PriorityLevel,
    timeSpent: Option<real>)

  /** The `CreateTask` body. */
  datatype NewEntry = NewEntry(title: string, description: string, deadline: DateTime, priority: PriorityLevel)

  /** The fields an `UpdateTask` request set (`exclude_unset=True`): `None` is a field left out. */
  datatype EntryPatch = EntryPatch(
    title: Option<string>,
    description: Option<string>,
    deadline: Option<DateTime>,
    priority: Option<PriorityLevel>,
    timeSpent: Option<real>)

  /**
   * Why a handler answers with an error: no task has the id (404), or the
   * `TaskResponse` built from a task dictionary fails validation, which the
   * server answers with 500.
   */
  datatype TaskError = TaskNotFound | InvalidResponse

  const DeletedMessage: string := "Task deleted"

  /**
   * `TaskResponse(**task)` validates: its `time_spent: float` has no
   * default, so a dictionary without that key (every created task) is
   * refused.
   */
  predicate Responds(e: Entry) {
    e.timeSpent.Some?
  }

  /**
   * `[TaskResponse(**task) for task in ts]`: every task in order, or the
   * validation error of the first task that does not respond.
   */
  function Listing(ts: seq<Entry>): (r: Result<seq<Entry>, TaskError>)
    ensures r.Success? <==> forall k :: 0 <= k < |ts| ==> Responds(ts[k])
    ensures r.Success? ==> r.value == ts
    ensures r.Failure? ==> r.error == InvalidResponse
  {
    if ts == [] then Success([])
    else if !Responds(ts[0]) then Failure(InvalidResponse)
    else
      match Listing(ts[1..])
      case Failure(err) => Failure(err)
      case Success(rest) =>
        assert [ts[0]] + ts[1..] == ts;
        Success([ts[0]] + rest)
  }

  /** A merged copy responds exactly when the stored task did or the request set `time_spent`. */
  lemma MergeResponds(e: Entry, p: EntryPatch)
    ensures Responds(Merge(e, p)) <==> Responds(e) || p.timeSpent.Some?
  {
  }

  /** The two seed tasks carry `time_spent`, so the initial list is served. */
  lemma SeedListed()
    ensures Listing(Seed()) == Success(Seed())
  {
    var s := Seed();
    assert Responds(s[0]) && Responds(s[1]);
  }

  /** The two tasks the list starts with. */
  function Seed(): (ts: seq<Entry>)
    ensures |ts| == 2 && ts[0].id == 1 && ts[1].id == 2
  {
    [Entry(1, "Задача 1", "Описание задачи 1", DateTime(2023, 4, 30, 17, 0, 0, 0), HIGH, Some(1.5)),
     Entry(2, "Задача 2", "Описание задачи 2", DateTime(2023, 5, 5, 12, 0, 0, 0), MEDIUM, Some(2.0))]
  }

  /** `task.copy()` then `update(...)`: the set fields of the request over the stored ones. */
  function Merge(e: Entry, p: EntryPatch): (m: Entry)
    ensures m.id == e.id
    ensures p.title.None? ==> m.title == e.title
    ensures p.title.Some? ==> m.title == p.title.value
    ensures p.description.None? ==> m.description == e.description
    ensures p.description.Some? ==> m.description == p.description.value
    ensures p.deadline.None? ==> m.deadline == e.deadline
    ensures p.deadline.Some? ==> m.deadline == p.deadline.value
    ensures p.priority.None? ==> m.priority == e.priority
    ensures p.priority.Some? ==> m.priority == p.priority.value
    ensures p.timeSpent.None? ==> m.timeSpent == e.timeSpent
    ensures p.timeSpent.Some? ==> m.timeSpent == p.timeSpent
  {
    Entry(e.id, p.title.GetOr(e.title), p.description.GetOr(e.description),
          p.deadline.GetOr(e.deadline), p.priority.GetOr(e.priority),
          if p.timeSpent.Some? then p.timeSpent else e.timeSpent)
  }

  /** A request that sets nothing gives back the stored task. */
  lemma MergeNothing(e: Entry)
    ensures Merge(e, EntryPatch(None, None, None, None, None)) == e
  {
  }

  /** The position of the first task with id `id`, as the `for` loop meets it. */
  function IndexOf(ts: seq<Entry>, id: int): (r: Option<nat>)
    ensures r.Some? ==> r.value < |ts| && ts[r.value].id == id
    ensures r.Some? ==> forall k :: 0 <= k < r.value ==> ts[k].id != id
    ensures r.None? <==> forall k :: 0 <= k < |ts| ==> ts[k].id != id
  {
    if ts == [] then None
    else if ts[0].id == id then Some(0)
    else match IndexOf(ts[1..], id)
      case None => None
      case Some(k) => Some(k + 1)
  }

  /** `[task for task in temp_db_tasks if task["id"] != task_id]`. */
  function Without(ts: seq<Entry>, id: int): (r: seq<Entry>)
    ensures |r| <= |ts|
    ensures forall e :: e in r <==> e in ts && e.id != id
  {
    if ts == [] then []
    else (if ts[0].id != id then [ts[0]] else []) + Without(ts[1..], id)
  }

  /** Deleting an id no task has leaves the list as it was. */
  lemma {:induction false} WithoutAbsent(ts: seq<Entry>, id: int)
    requires forall k :: 0 <= k < |ts| ==> ts[k].id != id
    ensures Without(ts, id) == ts
  {
    if ts != [] {
      WithoutAbsent(ts[1..], id);
      assert [ts[0]] + ts[1..] == ts;
    }
  }

  /** Deleting twice is deleting once. */
  lemma WithoutIdempotent(ts: seq<Entry>, id: int)
    ensures Without(Without(ts, id), id) == Without(ts, id)
  {
    var r := Without(ts, id);
    forall k | 0 <= k < |r| ensures r[k].id != id {
      assert r[k] in r;
    }
    WithoutAbsent(r, id);
  }

  /** The entries kept by a delete come in their original order: filtering distributes over `+`. */
  lemma {:induction false} WithoutConcat(a: seq<Entry>, b: seq<Entry>, id: int)
    ensures Without(a + b, id) == Without(a, id) + Without(b, id)
  {
    if a == [] {
      assert a + b == b;
    } else {
      assert (a + b)[0] == a[0] && (a + b)[1..] == a[1..] + b;
      WithoutConcat(a[1..], b, id);
    }
  }

  /** The stored ids are exactly 1..n, in order: what the two seed tasks and `create_task` keep. */
  predicate DenseIds(ts: seq<Entry>) {
    forall k :: 0 <= k < |ts| ==> ts[k].id == k + 1
  }

  /** The id `create_task` hands out. */
  function NextId(ts: seq<Entry>): int {
    |ts| + 1
  }

  /** While the ids are dense, the next id is taken by no task, and appending keeps them dense. */
  lemma NextIdFresh(ts: seq<Entry>, e: Entry)
    requires DenseIds(ts) && e.id == NextId(ts)
    ensures forall k :: 0 <= k < |ts| ==> ts[k].id != NextId(ts)
    ensures DenseIds(ts + [e])
  {
  }

  /** The seed list, task 1 deleted, then one task created: two tasks now share id 2. */
  lemma DuplicateAfterDelete(data: NewEntry)
    ensures var after := Without(Seed(), 1);
            var e := Entry(NextId(after), data.title, data.description, data.deadline, data.priority, None);
            var ts := after + [e];
            |ts| == 2 && ts[0].id == 2 && ts[1].id == 2
  {
    var s := Seed();
    assert s == [s[0]] + [s[1]];
    WithoutConcat([s[0]], [s[1]], 1);
    assert Without([s[0]], 1) == [];
    assert Without([s[1]], 1) == [s[1]];
  }

  /** The list of tasks. */
  class TaskList {
    var tasks: seq<Entry>

    /** The module's initial `temp_db_tasks`. */
    constructor ()
      ensures tasks == Seed() && DenseIds(tasks)
    {
      tasks := Seed();
    }

    /** `GET /tasks`: every stored task in stored order, or 500 once some task lacks `time_spent`. */
    function GetTasks(): (r: Result<seq<Entry>, TaskError>)
      reads this
      ensures r.Success? <==> forall k :: 0 <= k < |tasks| ==> Responds(tasks[k])
      ensures r.Success? ==> |r.value| == |tasks| && forall k :: 0 <= k < |tasks| ==> r.value[k] == tasks[k]
      ensures r.Failure? ==> r.error == InvalidResponse
    {
      Listing(tasks)
    }

    /**
     * `POST /tasks`: the body under id `len + 1` is appended at the end;
     * the new dictionary has no `time_spent`, so building its response
     * fails (500) after the append, and from then on `GET /tasks` fails too.
     */
    method Create(data: NewEntry) returns (r: Result<Entry, TaskError>)
      modifies this
      ensures tasks == old(tasks) + [Entry(|old(tasks)| + 1, data.title, data.description, data.deadline, data.priority, None)]
      ensures r == Failure(InvalidResponse)
      ensures GetTasks() == Failure(InvalidResponse)
      ensures old(DenseIds(tasks)) ==> DenseIds(tasks)
      ensures old(DenseIds(tasks)) ==> forall k :: 0 <= k < |old(tasks)| ==> old(tasks)[k].id != |old(tasks)| + 1
    {
      var e := Entry(NextId(tasks), data.title, data.description, data.deadline, data.priority, None);
      tasks := tasks + [e];
      assert !Responds(tasks[|tasks| - 1]);
      r := if Responds(e) then Success(e) else Failure(InvalidResponse);
    }

    /**
     * `PUT /tasks/{id}`: the first task with the id, merged with the set
     * fields of the request into a copy; the list itself is not changed.
     * The copy's response fails (500) when it has no `time_spent`.
     */
    method Update(taskId: int, p: EntryPatch) returns (r: Result<Entry, TaskError>)
      ensures r == Failure(TaskNotFound) <==> IndexOf(tasks, taskId).None?
      ensures r == Failure(InvalidResponse) <==>
        IndexOf(tasks, taskId).Some? && !Responds(Merge(tasks[IndexOf(tasks, taskId).value], p))
      ensures r.Success? ==> r.value == Merge(tasks[IndexOf(tasks, taskId).value], p)
      ensures r.Success? ==> r.value.id == taskId
    {
      var i := 0;
      while i < |tasks|
        invariant 0 <= i <= |tasks|
        invariant forall k :: 0 <= k < i ==> tasks[k].id != taskId
      {
        if tasks[i].id == taskId {
          var merged := Merge(tasks[i], p);
          return if Responds(merged) then Success(merged) else Failure(InvalidResponse);
        }
        i := i + 1;
      }
      return Failure(TaskNotFound);
    }

    /** `DELETE /tasks/{id}`: every task with the id goes, the rest stay in order; the answer is always the same. */
    method Delete(taskId: int) returns (message: string)
      modifies this
      ensures tasks == Without(old(tasks), taskId)
      ensures message == DeletedMessage
    {
      tasks := Without(tasks, taskId);
      message := DeletedMessage;
    }
  }
}

=== FILE: range_sums.dfy ===
/**
 * Summing 1..100000 split into ten chunks of 10000 numbers, each chunk
 * summed by its own worker: a coroutine whose results are gathered in
 * order, a thread writing its slot of a shared list, or a process writing
 * its slot of a shared array of C `int`s.  The scheduling itself is
 * outside; the model covers what each worker computes, which slot it
 * writes, and what the slots add up to whatever order the workers finish in.
 */
module RangeSums {

  /** `task_count`, `thread_count`, `process_count`. */
  const Workers: nat := 10
  /** The numbers summed are 1..Limit. */
  const Limit: nat := 100000
  /** `100000 // count`. */
  const PerWorker: nat := Limit / Workers

  /** `sum(range(start, end + 1))`: the integers from `start` to `end` inclusive, 0 when empty. */
  function SumRange(start: int, end: int): int
    decreases end - start
  {
    if end < start then 0 else SumRange(start, end - 1) + end
  }

  /** Gauss's formula: twice the sum is the count times the sum of the ends. */
  lemma {:induction false} Gauss(start: int, end: int)
    requires start <= end + 1
    ensures 2 * SumRange(start, end) == (end - start + 1) * (start + end)
    decreases end - start
  {
    if start <= end {
      Gauss(start, end - 1);
    }
  }

  /** Summing a range in two adjacent pieces gives the sum of the whole. */
  lemma {:induction false} SumRangeSplit(start: int, mid: int, end: int)
    requires start <= mid + 1 && mid <= end
    ensures SumRange(start, end) == SumRange(start, mid) + SumRange(mid + 1, end)
    decreases end - mid
  {
    if mid < end {
      SumRangeSplit(start, mid, end - 1);
    }
  }

  /** `start = i * numbers_per_task + 1`. */
  function ChunkStart(i: int): int {
    i * PerWorker + 1
  }

  /** `end = start + numbers_per_task - 1`. */
  function ChunkEnd(i: int): int {
    ChunkStart(i) + PerWorker - 1
  }

  /** Chunk i is `[i*10000 + 1, (i+1)*10000]`, and consecutive chunks meet without gap or overlap. */
  lemma ChunkBounds(i: int)
    ensures ChunkStart(i) == i * 10000 + 1 && ChunkEnd(i) == (i + 1) * 10000
    ensures ChunkEnd(i) + 1 == ChunkStart(i + 1)
  {
  }

  /** Every number of 1..100000 lies in exactly one chunk. */
  lemma ChunksTile(n: int)
    requires 1 <= n <= Limit
    ensures 0 <= (n - 1) / PerWorker < Workers
    ensures ChunkStart((n - 1) / PerWorker) <= n <= ChunkEnd((n - 1) / PerWorker)
    ensures forall j :: 0 <= j < Workers && ChunkStart(j) <= n <= ChunkEnd(j) ==> j == (n - 1) / PerWorker
  {
    var i := (n - 1) / PerWorker;
    assert PerWorker == 10000;
    assert i * 10000 <= n - 1 < i * 10000 + 10000;
    forall j | 0 <= j < Workers && ChunkStart(j) <= n <= ChunkEnd(j) ensures j == i {
      assert j * 10000 <= n - 1 < j * 10000 + 10000;
    }
  }

  /** What chunk i's worker computes. */
  function ChunkSum(i: int): int {
    SumRange(ChunkStart(i), ChunkEnd(i))
  }

  /** The chunk sums in chunk order: the gathered results, and every slot once filled. */
  function ChunkSums(): (rs: seq<int>)
    ensures |rs| == Workers && forall i :: 0 <= i < Workers ==> rs[i] == ChunkSum(i)
  {
    seq(Workers, i => ChunkSum(i))
  }

  /** `sum(results)`. */
  function Total(rs: seq<int>): int {
    if rs == [] then 0 else Total(rs[..|rs| - 1]) + rs[|rs| - 1]
  }

  /** The first k chunk sums add up to the sum of 1..k*10000. */
  lemma {:induction false} ChunkPrefixTotal(k: nat)
    requires k <= Workers
    ensures Total(ChunkSums()[..k]) == SumRange(1, k * PerWorker)
  {
    if k > 0 {
      ChunkPrefixTotal(k - 1);
      var rs := ChunkSums()[..k];
      assert rs[..k - 1] == ChunkSums()[..k - 1];
      assert Total(rs) == Total(rs[..k - 1]) + rs[k - 1];
      ChunkBounds(k - 1);
      assert rs[k - 1] == SumRange((k - 1) * 10000 + 1, k * 10000);
      SumRangeSplit(1, (k - 1) * 10000, k * 10000);
    }
  }

  /** The ten chunk sums add up to 100000 * 100001 / 2. */
  lemma ChunkSumsTotal()
    ensures Total(ChunkSums()) == SumRange(1, Limit) == 5000050000
  {
    ChunkPrefixTotal(Workers);
    assert ChunkSums()[..Workers] == ChunkSums();
    Gauss(1, Limit);
  }

  /** The largest chunk sum (the last) is 950005000, which a signed 32-bit `int` holds. */
  lemma ChunkSumBound(i: int)
    requires 0 <= i < Workers
    ensures 0 < ChunkSum(i) <= 950005000 < 0x8000_0000
    ensures i == Workers - 1 ==> ChunkSum(i) == 950005000
  {
    assert PerWorker == 10000;
    var lo, hi := ChunkStart(i), ChunkEnd(i);
    assert lo == 10000 * i + 1 && hi == 10000 * i + 10000;
    Gauss(lo, hi);
    assert 2 * ChunkSum(i) == 10000 * (20000 * i + 10001);
  }

  /** `asyncio.gather` of the ten `calculate_sum` coroutines, then their total. */
  method GatherSums() returns (results: seq<int>, total: int)
    ensures results == ChunkSums()
    ensures total == 5000050000
  {
    results := [];
    for i := 0 to Workers
      invariant results == ChunkSums()[..i]
    {
      results := results + [SumRange(ChunkStart(i), ChunkEnd(i))];
    }
    ChunkSumsTotal();
    total := Total(results);
  }

  /** The order the workers finish in: each of the ten chunk indices exactly once. */
  predicate IsSchedule(order: seq<int>) {
    |order| == Workers &&
    (forall j :: 0 <= j < |order| ==> 0 <= order[j] < Workers) &&
    (forall i :: 0 <= i < Workers ==> i in order)
  }

  /** `calculate_sum(start, end, result, index)` of the thread version: fills slot `index` and nothing else. */
  method CalculateSumInto(start: int, end: int, result: array<int>, index: int)
    requires 0 <= index < result.Length
    modifies result
    ensures result[index] == SumRange(start, end)
    ensures forall k :: 0 <= k < result.Length && k != index ==> result[k] == old(result[k])
  {
    result[index] := SumRange(start, end);
  }

  /**
   * The thread version: `results = [0] * 10`, one writer per chunk running
   * in the order `order`, then `sum(results)`.  However the threads are
   * interleaved, every slot ends with its own chunk's sum.
   */
  method ThreadSums(order: seq<int>) returns (results: array<int>, total: int)
    requires IsSchedule(order)
    ensures fresh(results)
    ensures results[..] == ChunkSums()
    ensures total == 5000050000
  {
    results := new int[Workers](_ => 0);
    for j := 0 to Workers
      invariant forall k :: 0 <= k < Workers ==> results[k] == if k in order[..j] then ChunkSum(k) else 0
    {
      var i := order[j];
      CalculateSumInto(ChunkStart(i), ChunkEnd(i), results, i);
      assert order[..j + 1] == order[..j] + [i];
    }
    assert order[..Workers] == order;
    assert results[..] == ChunkSums();
    ChunkSumsTotal();
    total := Total(results[..]);
  }

  /** A signed 32-bit C `int`, the element type of `Array("i", ...)`. */
  newtype Int32 = x: int | -0x8000_0000 <= x < 0x8000_0000

  /** Storing a Python int into a C `int` keeps its low 32 bits, read back as signed. */
  function Wrap32(v: int): (r: Int32)
    ensures (r as int - v) % 0x1_0000_0000 == 0
    ensures -0x8000_0000 <= v < 0x8000_0000 ==> r as int == v
  {
    ((v + 0x8000_0000) % 0x1_0000_0000 - 0x8000_0000) as Int32
  }

  /** `calculate_sum` of the process version: fills slot `index` of the shared array and nothing else. */
  method CalculateSumShared(start: int, end: int, result: array<Int32>, index: int)
    requires 0 <= index < result.Length
    modifies result
    ensures result[index] == Wrap32(SumRange(start, end))
    ensures forall k :: 0 <= k < result.Length && k != index ==> result[k] == old(result[k])
  {
    result[index] := Wrap32(SumRange(start, end));
  }

  /** The array's values, read back as Python ints. */
  function AsInts(a: seq<Int32>): (s: seq<int>)
    ensures |s| == |a| && forall k :: 0 <= k < |a| ==> s[k] == a[k] as int
  {
    seq(|a|, k requires 0 <= k < |a| => a[k] as int)
  }

  /**
   * The process version: a zeroed `Array("i", 10)`, one writer per chunk in
   * the order `order`, then `sum(results)`.  No chunk sum overflows the C
   * `int`, so every slot holds its chunk's exact sum.
   */
  method ProcessSums(order: seq<int>) returns (results: array<Int32>, total: int)
    requires IsSchedule(order)
    ensures fresh(results)
    ensures AsInts(results[..]) == ChunkSums()
    ensures total == 5000050000
  {
    results := new Int32[Workers](_ => 0);
    for j := 0 to Workers
      invariant forall k :: 0 <= k < Workers ==> results[k] as int == if k in order[..j] then ChunkSum(k) else 0
    {
      var i := order[j];
      ChunkSumBound(i);
      CalculateSumShared(ChunkStart(i), ChunkEnd(i), results, i);
      assert order[..j + 1] == order[..j] + [i];
    }
    assert order[..Workers] == order;
    assert AsInts(results[..]) == ChunkSums();
    ChunkSumsTotal();
    total := Total(AsInts(results[..]));
  }
}

=== FILE: status_parser.dfy ===
/**
 * The scrape worker of the job service: `parse_data` reads at most five
 * incidents from one of the two status pages and turns each into a task
 * record; `parse_url_task` posts them to a callback; `get_result` reports a
 * job's state.  The browser, the job queue and the HTTP client are outside:
 * the page arrives as a sequence of `Incident`s, the job state and the
 * callback's status code as plain inputs, and `random.randint(1, 3)` as one
 * `Assignee` per incident.
 */
module StatusParser {
  import opened Wrappers
  import opened Text
  import opened Timestamps
  import opened Incidents

  /** The loop stops after this many records. */
  const Cap: nat := 5

  /**
   * The time of day put into the VK date.  When the range contains "в" the
   * statement that splits it binds the time to None, so "00:00" is used;
   * otherwise the first five characters of the stripped range.
   */
  function VkTime(timeRange: string): (t: string)
    ensures 'в' in timeRange ==> t == "00:00"
    ensures 'в' !in timeRange && !AllSpace(timeRange) ==> t == Strip(Prefix(Strip(timeRange), 5))
    ensures 'в' !in timeRange && AllSpace(timeRange) ==> t == "00:00"
    ensures |t| <= 5
  {
    if 'в' in timeRange then "00:00"
    else
      var e := Strip(timeRange);
      if e != [] then Strip(Prefix(e, 5)) else "00:00"
  }

  /** The VK deadline: day and month from the date text, time from the range, as `%Y-%m-%d %H:%M:%S.%f`. */
  function VkDeadline(date: string, timeRange: string): Result<string, SkipReason> {
    var dm :- VkDayMonth(date);
    match Strptime(VkDateText(dm.1, dm.0, VkTime(timeRange)), Plain)
    case None => Failure(BadTimestamp)
    case Some(dt) => Success(Render(dt, Plain))
  }

  /** A range that starts, after any whitespace, with a two-digit "HH:MM" and has no "в" yields that time. */
  lemma VkTimeOfClock(lead: string, hh: string, mm: string, rest: string)
    requires AllSpace(lead) && 'в' !in lead && 'в' !in rest
    requires |hh| == 2 && AllDigits(hh) && |mm| == 2 && AllDigits(mm)
    ensures VkTime(lead + (hh + ":" + mm) + rest) == hh + ":" + mm
  {
    var clock := hh + ":" + mm;
    var range := lead + clock + rest;
    DigitsArePlain(hh);
    DigitsArePlain(mm);
    assert clock[0] == hh[0] && clock[4] == mm[1];
    assert 'в' !in clock by {
      assert clock == hh + [':'] + mm;
    }
    assert 'в' !in range;
    assert range[|lead|] == hh[0];
    StripCutStrip(lead, clock, rest);
  }

  /**
   * The converse of the shape: a day of one or two digits that exists in
   * the month, whitespace, the month's name, and a range whose time is
   * "H:M" on the clock give that moment of 2024, rendered.
   */
  lemma VkDeadlineOfText(day: string, gap: string, m: int, timeRange: string, hh: string, mm: string)
    requires 1 <= m <= 12
    requires 1 <= |day| <= 2 && AllDigits(day) && 1 <= DigitsValue(day) <= DaysInMonth(2024, m)
    requires gap != [] && AllSpace(gap)
    requires 1 <= |hh| <= 2 && AllDigits(hh) && DigitsValue(hh) <= 23
    requires 1 <= |mm| <= 2 && AllDigits(mm) && DigitsValue(mm) <= 59
    requires VkTime(timeRange) == hh + ":" + mm
    ensures VkDeadline(day + (gap + MonthNames[m - 1]), timeRange)
         == Success(Render(DateTime(2024, m, DigitsValue(day), DigitsValue(hh), DigitsValue(mm), 0, 0), Plain))
  {
    DigitsArePlain(day);
    VkDayMonthOfText(day, gap, m);
    VkDateTextParses(m, day, hh, mm);
  }

  /**
   * A VK deadline, once produced, has the emitted shape, the year 2024, the
   * code of the month the date names, and zero seconds and fraction.
   */
  lemma VkDeadlineShape(date: string, timeRange: string)
    ensures var r := VkDeadline(date, timeRange);
      r.Success? ==>
        && DeadlinePattern(r.value)
        && r.value[..4] == "2024"
        && |Words(date)| >= 2 && Words(date)[1] in MonthCodes
        && r.value[5..7] == MonthCodes[Words(date)[1]]
        && r.value[17..19] == "00" && DigitsValue(r.value[20..26]) == 0
  {
    var dm := VkDayMonth(date);
    VkDayMonthFields(date, VkTime(timeRange));
    if dm.Success? {
      var p := Strptime(VkDateText(dm.value.1, dm.value.0, VkTime(timeRange)), Plain);
      if p.Some? {
        VkZeroTail(p.value);
      }
    }
  }

  /** The plain rendering of a date-time in 2024 at second 0 with no fraction. */
  lemma VkZeroTail(dt: DateTime)
    requires Valid(dt) && dt.year == 2024 && dt.second == 0 && dt.microsecond == 0
    ensures var s := Render(dt, Plain);
      && DeadlinePattern(s) && s[..4] == "2024" && s[5..7] == Pad(dt.month, 2)
      && s[17..19] == "00" && DigitsValue(s[20..26]) == 0
  {
    RenderPattern(dt);
    RenderPositions(dt);
    TemplateNumbers();
    PadValue(0, 6);
  }

  /** The Yandex deadline: the ISO `datetime` attribute re-rendered as `%Y-%m-%d %H:%M:%S.%f`. */
  function YandexDeadline(attr: Option<string>): Result<string, SkipReason> {
    match attr
    case None => Failure(MissingAttribute)
    case Some(s) =>
      match Strptime(s, IsoZulu)
      case None => Failure(BadTimestamp)
      case Some(dt) => Success(Render(dt, Plain))
  }

  /**
   * Every ISO timestamp the page can carry for a valid date-time is
   * re-emitted with the 'T' turned into a space and the 'Z' dropped.
   */
  lemma YandexDeadlineOfIso(dt: DateTime)
    requires Valid(dt)
    ensures var s := Render(dt, IsoZulu);
      |s| == 27 && YandexDeadline(Some(s)) == Success(s[..10] + " " + s[11..26])
  {
    RenderParses(dt, IsoZulu);
    RenderIsoIsPlainWithTZ(dt);
    RenderPositions(dt);
    SwapSeparator(Render(dt, Plain), Render(dt, IsoZulu), ' ', 'T', 'Z');
  }

  /** Putting the separator at 10 back and dropping the trailing mark undoes the ISO spelling. */
  lemma SwapSeparator<T>(p: seq<T>, s: seq<T>, sep: T, t: T, z: T)
    requires |p| == 26 && p[10] == sep
    requires s == p[..10] + [t] + p[11..] + [z]
    ensures |s| == 27 && s[..10] + [sep] + s[11..26] == p
  {
    assert s[..10] == p[..10];
    assert s[11..26] == p[11..];
  }

  /** A Yandex deadline is missing exactly when the attribute is, and once produced it has the emitted shape. */
  lemma YandexDeadlineShape(attr: Option<string>)
    ensures YandexDeadline(attr) == Failure(MissingAttribute) <==> attr.None?
    ensures YandexDeadline(attr).Success? ==> DeadlinePattern(YandexDeadline(attr).value)
  {
    if attr.Some? && Strptime(attr.value, IsoZulu).Some? {
      RenderPattern(Strptime(attr.value, IsoZulu).value);
    }
  }

  /** The deadline of an incident: the site's elements looked up, then converted. */
  function DeadlineOf(site: Site, inc: Incident): Result<string, SkipReason> {
    if site == Vk then
      if inc.date.None? then Failure(MissingDate)
      else if inc.timeRange.None? then Failure(MissingTimeRange)
      else VkDeadline(inc.date.value, inc.timeRange.value)
    else
      if inc.deadline.None? then Failure(MissingDeadline)
      else YandexDeadline(inc.deadline.value)
  }

  /** The body of the per-incident `try`: a record, or the reason the incident is skipped. */
  function Extract(site: Site, inc: Incident, who: Assignee): Result<IncidentRecord<string>, SkipReason> {
    if inc.title.None? then Failure(MissingTitle)
    else if inc.status.None? then Failure(MissingStatus)
    else
      var deadline :- DeadlineOf(site, inc);
      Success(IncidentRecord(inc.title.value, DescriptionOf(inc), PriorityOf(inc.status.value),
                             deadline, who, COMPLETED))
  }

  /**
   * Each cause of a skip after the title and status: a missing date or time
   * range on VK, a date whose day and month do not read, and a missing
   * `datetime` attribute on Yandex.
   */
  lemma ExtractSkips(site: Site, inc: Incident, who: Assignee)
    requires inc.title.Some? && inc.status.Some?
    ensures site == Vk && inc.date.None? ==> Extract(site, inc, who) == Failure(MissingDate)
    ensures site == Vk && inc.date.Some? && inc.timeRange.None? ==>
      Extract(site, inc, who) == Failure(MissingTimeRange)
    ensures site == Vk && inc.date.Some? && inc.timeRange.Some? && VkDayMonth(inc.date.value).Failure? ==>
      Extract(site, inc, who) == Failure(VkDayMonth(inc.date.value).error)
    ensures site == Yandex && inc.deadline.None? ==> Extract(site, inc, who) == Failure(MissingDeadline)
  {
  }

  /**
   * An incident is skipped when its title or status element is missing; a
   * kept one carries the title, the description rule, the priority rule,
   * the drawn assignee, status COMPLETED and a deadline of the emitted shape.
   */
  lemma ExtractRecord(site: Site, inc: Incident, who: Assignee)
    ensures inc.title.None? ==> Extract(site, inc, who) == Failure(MissingTitle)
    ensures inc.title.Some? && inc.status.None? ==> Extract(site, inc, who) == Failure(MissingStatus)
    ensures var r := Extract(site, inc, who);
      r.Success? ==>
        && r.value.title == inc.title.value
        && r.value.description == DescriptionOf(inc)
        && r.value.priority == PriorityOf(inc.status.value)
        && r.value.userId == who && r.value.status == COMPLETED
        && DeadlinePattern(r.value.deadline)
    ensures inc.title.Some? && inc.status.Some? ==>
      (Extract(site, inc, who).Success? <==> DeadlineOf(site, inc).Success?)
    ensures inc.title.Some? && inc.status.Some? && DeadlineOf(site, inc).Failure? ==>
      Extract(site, inc, who) == Failure(DeadlineOf(site, inc).error)
    ensures Extract(site, inc, who).Success? ==> Extract(site, inc, who).value.deadline == DeadlineOf(site, inc).value
  {
    if inc.title.Some? && inc.status.Some? {
      if site == Vk && inc.date.Some? && inc.timeRange.Some? {
        VkDeadlineShape(inc.date.value, inc.timeRange.value);
      } else if site == Yandex && inc.deadline.Some? {
        YandexDeadlineShape(inc.deadline.value);
      }
    }
  }

  /** Whether an incident is kept does not depend on its description element. */
  lemma ExtractIgnoresDescription(site: Site, inc: Incident, d: Option<string>, who: Assignee)
    ensures Extract(site, inc.(description := d), who).Success? == Extract(site, inc, who).Success?
  {
    assert DeadlineOf(site, inc.(description := d)) == DeadlineOf(site, inc);
  }

  /** The outcome of every incident of the page, in page order. */
  function Outcomes(site: Site, page: seq<Incident>, assignees: seq<Assignee>): (o: seq<Result<IncidentRecord<string>, SkipReason>>)
    requires |assignees| == |page|
    ensures |o| == |page|
    ensures forall i :: 0 <= i < |page| ==> o[i] == Extract(site, page[i], assignees[i])
  {
    seq(|page|, i requires 0 <= i < |page| => Extract(site, page[i], assignees[i]))
  }

  /**
   * `parse_data`: look up the selectors, then walk the incidents, appending
   * each one that extracts and stopping right after the fifth.
   */
  method ParseData(url: string, page: seq<Incident>, assignees: seq<Assignee>)
    returns (r: Result<seq<IncidentRecord<string>>, ScrapeError>)
    requires |assignees| == |page|
    ensures SiteOf(url).None? <==> r == Failure(UnknownUrl)
    ensures SiteOf(url).Some? ==> r == Success(Collect(Outcomes(SiteOf(url).value, page, assignees), Cap))
  {
    var site := SiteOf(url);
    if site.None? {
      return Failure(UnknownUrl);
    }
    ghost var outcomes := Outcomes(site.value, page, assignees);
    var data: seq<IncidentRecord<string>> := [];
    var successfulAdditions := 0;
    var i := 0;
    CollectInvariantInit(outcomes, Cap);
    while i < |page|
      invariant 0 <= i <= |page|
      invariant successfulAdditions == |data| < Cap
      invariant CollectInvariant(outcomes, i, data, Cap)
    {
      var outcome := Extract(site.value, page[i], assignees[i]);
      assert outcome == outcomes[i];
      CollectInvariantStep(outcomes, i, data, Cap);
      if outcome.Success? {
        data := data + [outcome.value];
        successfulAdditions := successfulAdditions + 1;
        if successfulAdditions >= Cap {
          CollectInvariantDone(outcomes, i + 1, data, Cap);
          return Success(data);
        }
      }
      i := i + 1;
    }
    CollectInvariantDone(outcomes, i, data, Cap);
    return Success(data);
  }

  /** What `GET /result/{task_id}` answers for a job in state `state`. */
  datatype JobView<R> = StatusOnly(status: string) | StatusAndResult(status: string, result: R)

  function GetResult<R>(state: string, result: R): (v: JobView<R>)
    ensures v.status == state
    ensures v.StatusAndResult? <==> state == "SUCCESS"
    ensures v.StatusAndResult? ==> v.result == result
  {
    if state == "SUCCESS" then StatusAndResult(state, result) else StatusOnly(state)
  }

  /** The message `parse_url_task` returns once the callback answered with `statusCode`. */
  function CallbackMessage(statusCode: int, callbackUrl: string): (msg: string)
    ensures msg == "Parsing completed" <==> statusCode == 200
    ensures statusCode != 200 ==> msg == "Failed to send data to callback URL: " + callbackUrl
  {
    if statusCode != 200 then "Failed to send data to callback URL: " + callbackUrl
    else "Parsing completed"
  }

  /** How a run of `parse_url_task` ends: an exception out of `parse_data`, or a message after the callback. */
  datatype TaskRun = Raised(error: ScrapeError) | Returned(posted: seq<IncidentRecord<string>>, message: string)

  /** `parse_url_task`: scrape, post the records to the callback once, and report the callback's status. */
  method ParseUrlTask(url: string, callbackUrl: string, page: seq<Incident>, assignees: seq<Assignee>, statusCode: int)
    returns (run: TaskRun)
    requires |assignees| == |page|
    ensures run.Raised? <==> SiteOf(url).None?
    ensures run.Returned? ==> run.posted == Collect(Outcomes(SiteOf(url).value, page, assignees), Cap)
    ensures run.Returned? ==> (run.message == "Parsing completed" <==> statusCode == 200)
    ensures run.Returned? && statusCode != 200 ==> run.message == "Failed to send data to callback URL: " + callbackUrl
  {
    var data := ParseData(url, page, assignees);
    if data.Failure? {
      return Raised(data.error);
    }
    run := Returned(data.value, CallbackMessage(statusCode, callbackUrl));
  }
}

=== FILE: text.dfy ===
/**
 * The few pieces of Python string handling the scrapers rely on:
 * `str.strip()`, `str.split()` (whitespace), `str.split(sep)` for a
 * one-character separator, and slicing a prefix.
 */
module Text {

  /** The characters Python's `str.isspace()` accepts: what `strip()` and `split()` remove. */
  const Whitespace: set<char> := {
    ' ', '\t', '\n', '\U{B}', '\U{C}', '\r', '\U{1C}', '\U{1D}', '\U{1E}', '\U{1F}',
    '\U{85}', '\U{A0}', '\U{1680}', '\U{2000}', '\U{2001}', '\U{2002}', '\U{2003}',
    '\U{2004}', '\U{2005}', '\U{2006}', '\U{2007}', '\U{2008}', '\U{2009}', '\U{200A}',
    '\U{2028}', '\U{2029}', '\U{202F}', '\U{205F}', '\U{3000}'
  }

  predicate IsSpace(c: char) {
    c in Whitespace
  }

  predicate NoSpace(w: string) {
    forall k :: 0 <= k < |w| ==> !IsSpace(w[k])
  }

  predicate AllSpace(s: string) {
    forall k :: 0 <= k < |s| ==> IsSpace(s[k])
  }

  /** `s.lstrip()`: the suffix of `s` left after dropping leading whitespace. */
  function TrimStart(s: string): (r: string)
    ensures |r| <= |s| && r == s[|s| - |r|..]
    ensures forall k :: 0 <= k < |s| - |r| ==> IsSpace(s[k])
    ensures r == [] || !IsSpace(r[0])
  {
    if s == [] || !IsSpace(s[0]) then s else TrimStart(s[1..])
  }

  /** `s.rstrip()`: the prefix of `s` left after dropping trailing whitespace. */
  function TrimEnd(s: string): (r: string)
    ensures |r| <= |s| && r == s[..|r|]
    ensures forall k :: |r| <= k < |s| ==> IsSpace(s[k])
    ensures r == [] || !IsSpace(r[|r| - 1])
  {
    if s == [] || !IsSpace(s[|s| - 1]) then s else TrimEnd(s[..|s| - 1])
  }

  /** `s.strip()`. */
  function Strip(s: string): (r: string)
    ensures |r| <= |s|
    ensures r == [] || (!IsSpace(r[0]) && !IsSpace(r[|r| - 1]))
    ensures r == [] <==> AllSpace(s)
  {
    TrimEnd(TrimStart(s))
  }

  /** `strip()` removes whitespace from both ends and nothing else: what is left is an infix of `s`. */
  lemma StripRemovesEnds(s: string)
    ensures var r := Strip(s);
      exists i :: 0 <= i <= |s| - |r| && r == s[i..i + |r|] && AllSpace(s[..i]) && AllSpace(s[i + |r|..])
  {
    StripInfix(s, TrimStart(s), Strip(s));
  }

  /** Trimming both ends leaves an infix with whitespace on either side. */
  lemma StripInfix(s: string, t: string, r: string)
    requires |t| <= |s| && t == s[|s| - |t|..] && forall k :: 0 <= k < |s| - |t| ==> IsSpace(s[k])
    requires |r| <= |t| && r == t[..|r|] && forall k :: |r| <= k < |t| ==> IsSpace(t[k])
    ensures exists i :: 0 <= i <= |s| - |r| && r == s[i..i + |r|] && AllSpace(s[..i]) && AllSpace(s[i + |r|..])
  {
    var i := |s| - |t|;
    assert s[i + |r|..] == t[|r|..];
    assert r == s[i..i + |r|];
    assert AllSpace(s[..i]);
    assert AllSpace(s[i + |r|..]);
  }

  /** Stripping text that has no whitespace at either end changes nothing. */
  lemma StripUnpadded(s: string)
    requires s == [] || (!IsSpace(s[0]) && !IsSpace(s[|s| - 1]))
    ensures Strip(s) == s
  {
  }

  /**
   * Stripping, cutting to `|w|` characters and stripping again recovers a
   * piece `w` that follows leading whitespace and has no whitespace at
   * either end, whatever comes after it.
   */
  lemma StripCutStrip(lead: string, w: string, rest: string)
    requires AllSpace(lead) && w != [] && !IsSpace(w[0]) && !IsSpace(w[|w| - 1])
    ensures Strip(Prefix(Strip(lead + w + rest), |w|)) == w
  {
    assert lead + w + rest == lead + (w + rest);
    TrimStartOfGap(lead, w + rest);
    TrimEndKeeps(w + rest, |w|);
    assert (w + rest)[..|w|] == w;
    StripUnpadded(w);
  }

  /** Trimming the end never cuts into a prefix that ends in a non-whitespace character. */
  lemma TrimEndKeeps(x: string, k: nat)
    requires 0 < k <= |x| && !IsSpace(x[k - 1])
    ensures k <= |TrimEnd(x)| && Prefix(TrimEnd(x), k) == x[..k]
  {
  }

  /** `s[:n]`, Python's clamped prefix slice. */
  function Prefix(s: string, n: nat): (r: string)
    ensures |r| == if n < |s| then n else |s|
    ensures r == s[..|r|]
  {
    if n < |s| then s[..n] else s
  }

  /** Length of the leading run of non-whitespace characters. */
  function WordLength(s: string): (n: nat)
    ensures n <= |s| && NoSpace(s[..n])
    ensures n < |s| ==> IsSpace(s[n])
  {
    if s == [] || IsSpace(s[0]) then 0 else 1 + WordLength(s[1..])
  }

  /** `s.split()` with no argument: the maximal runs of non-whitespace, in order. */
  function Words(s: string): (ws: seq<string>)
    ensures forall w :: w in ws ==> w != [] && NoSpace(w)
    ensures ws == [] <==> AllSpace(s)
    decreases |s|
  {
    var t := TrimStart(s);
    if t == [] then []
    else
      var n := WordLength(t);
      var rest := Words(t[n..]);
      WordsCons(t[..n], rest);
      [t[..n]] + rest
  }

  /** A word in front of words gives words. */
  lemma WordsCons(w: string, rest: seq<string>)
    requires w != [] && NoSpace(w)
    requires forall x :: x in rest ==> x != [] && NoSpace(x)
    ensures forall x :: x in [w] + rest ==> x != [] && NoSpace(x)
  {
  }

  /** Words put back between whitespace gaps: `gaps[0] + ws[0] + gaps[1] + ... + ws[n-1] + gaps[n]`. */
  function Glue(gaps: seq<string>, ws: seq<string>): string
    requires |gaps| == |ws| + 1
  {
    if ws == [] then gaps[0] else gaps[0] + ws[0] + Glue(gaps[1..], ws[1..])
  }

  /** Whitespace gaps, every one but the outer two non-empty. */
  predicate Gaps(gaps: seq<string>) {
    && (forall i :: 0 <= i < |gaps| ==> AllSpace(gaps[i]))
    && (forall i :: 0 < i < |gaps| - 1 ==> gaps[i] != [])
  }

  predicate AllWords(ws: seq<string>) {
    forall i :: 0 <= i < |ws| ==> ws[i] != [] && NoSpace(ws[i])
  }

  /** Words glued with whitespace gaps split back into exactly those words. */
  lemma {:induction false} GlueWords(gaps: seq<string>, ws: seq<string>)
    requires |gaps| == |ws| + 1 && Gaps(gaps) && AllWords(ws)
    ensures Words(Glue(gaps, ws)) == ws
  {
    if ws == [] {
      assert AllSpace(gaps[0]);
    } else {
      var rest := Glue(gaps[1..], ws[1..]);
      GapsTail(gaps);
      AllWordsTail(ws);
      GlueWords(gaps[1..], ws[1..]);
      GlueHead(gaps, ws);
      WordsOfGluedWord(gaps[0], ws[0], rest, ws);
    }
  }

  lemma GapsTail(gaps: seq<string>)
    requires Gaps(gaps) && gaps != []
    ensures Gaps(gaps[1..])
  {
    var g := gaps[1..];
    forall i | 0 <= i < |g| ensures AllSpace(g[i]) {
      assert g[i] == gaps[i + 1];
    }
    forall i | 0 < i < |g| - 1 ensures g[i] != [] {
      assert g[i] == gaps[i + 1];
    }
  }

  lemma AllWordsTail(ws: seq<string>)
    requires AllWords(ws) && ws != []
    ensures AllWords(ws[1..])
  {
    var v := ws[1..];
    forall i | 0 <= i < |v| ensures v[i] != [] && NoSpace(v[i]) {
      assert v[i] == ws[i + 1];
    }
  }

  /** What follows the first word of a glued text is empty or starts with whitespace. */
  lemma GlueHead(gaps: seq<string>, ws: seq<string>)
    requires |gaps| == |ws| + 1 && Gaps(gaps) && ws != []
    ensures var rest := Glue(gaps[1..], ws[1..]);
      rest == [] || IsSpace(rest[0])
  {
    if |ws| > 1 {
      assert gaps[1] != [] && AllSpace(gaps[1]);
      assert Glue(gaps[1..], ws[1..]) == gaps[1] + ws[1] + Glue(gaps[2..], ws[2..]);
    } else {
      assert Glue(gaps[1..], ws[1..]) == gaps[1];
    }
  }

  /** A gap, a word, and text that is empty or starts with whitespace: the word comes first. */
  lemma WordsOfGluedWord(gap: string, w: string, rest: string, ws: seq<string>)
    requires AllSpace(gap) && w != [] && NoSpace(w)
    requires rest == [] || IsSpace(rest[0])
    requires ws != [] && ws[0] == w && Words(rest) == ws[1..]
    ensures Words(gap + w + rest) == ws
  {
    var b := w + rest;
    Regroup(gap, w, rest);
    HeadTail(ws);
    assert b[0] == w[0];
    WordsAfterGap(gap, b);
    WordsOfWord(w, rest);
  }

  lemma Regroup(a: string, b: string, c: string)
    ensures a + b + c == a + (b + c)
  {
  }

  lemma HeadTail<T>(s: seq<T>)
    requires s != []
    ensures [s[0]] + s[1..] == s
  {
  }

  /** Every text is its words glued back with the whitespace between them, in order. */
  lemma {:induction false} WordsGaps(s: string) returns (gaps: seq<string>)
    ensures |gaps| == |Words(s)| + 1 && Gaps(gaps) && Glue(gaps, Words(s)) == s
    ensures s != [] && IsSpace(s[0]) ==> gaps[0] != []
    decreases |s|
  {
    var t := TrimStart(s);
    var lead := s[..|s| - |t|];
    if t == [] {
      gaps := [s];
      GapsOfSpace(s);
    } else {
      var n := WordLength(t);
      var rest := t[n..];
      FirstWord(s, t, n);
      var more := WordsGaps(rest);
      gaps := WordsGapsStep(s, lead, t[..n], rest, more);
    }
  }

  /** Text that is not all whitespace is leading whitespace, a word, and what follows it. */
  lemma FirstWord(s: string, t: string, n: nat)
    requires |t| <= |s| && t == s[|s| - |t|..] && forall k :: 0 <= k < |s| - |t| ==> IsSpace(s[k])
    requires t != [] && !IsSpace(t[0])
    requires n <= |t| && NoSpace(t[..n]) && (n < |t| ==> IsSpace(t[n]))
    ensures s == s[..|s| - |t|] + t[..n] + t[n..]
    ensures AllSpace(s[..|s| - |t|]) && t[..n] != [] && NoSpace(t[..n])
    ensures t[n..] == [] || IsSpace(t[n..][0])
  {
    var i := |s| - |t|;
    assert s == s[..i] + s[i..];
    assert t == t[..n] + t[n..];
    assert AllSpace(s[..i]);
  }

  /** Text that is all whitespace is one gap with no words around it. */
  lemma GapsOfSpace(s: string)
    requires forall k :: 0 <= k < |s| ==> IsSpace(s[k])
    ensures |[s]| == |Words(s)| + 1 && Glue([s], Words(s)) == s
    ensures Gaps([s])
  {
    assert AllSpace(s);
  }

  /** One word and the whitespace in front of it, added to the gaps of what follows. */
  lemma WordsGapsStep(s: string, lead: string, w: string, rest: string, more: seq<string>) returns (gaps: seq<string>)
    requires s == lead + w + rest && AllSpace(lead) && w != [] && NoSpace(w)
    requires rest == [] || IsSpace(rest[0])
    requires |more| == |Words(rest)| + 1 && Gaps(more) && Glue(more, Words(rest)) == rest
    requires rest != [] && IsSpace(rest[0]) ==> more[0] != []
    ensures |gaps| == |Words(s)| + 1 && Glue(gaps, Words(s)) == s
    ensures Gaps(gaps)
    ensures s != [] && IsSpace(s[0]) ==> gaps[0] != []
  {
    gaps := [lead] + more;
    StepGlue(s, lead, w, rest, more);
    StepGaps(lead, rest, more);
    StepLead(s, lead, w, rest);
  }

  lemma StepLead(s: string, lead: string, w: string, rest: string)
    requires s == lead + w + rest && w != [] && NoSpace(w)
    ensures s != [] && IsSpace(s[0]) ==> lead != []
  {
    if lead == [] {
      assert s[0] == w[0];
    }
  }

  lemma StepGlue(s: string, lead: string, w: string, rest: string, more: seq<string>)
    requires s == lead + w + rest && AllSpace(lead) && w != [] && NoSpace(w)
    requires rest == [] || IsSpace(rest[0])
    requires |more| == |Words(rest)| + 1 && Glue(more, Words(rest)) == rest
    ensures |[lead] + more| == |Words(s)| + 1 && Glue([lead] + more, Words(s)) == s
  {
    var ws := Words(rest);
    WordsOfGluedWord(lead, w, rest, [w] + ws);
    GlueCons(lead, more, w, ws);
  }

  lemma StepGaps(lead: string, rest: string, more: seq<string>)
    requires AllSpace(lead) && (rest == [] || IsSpace(rest[0]))
    requires |more| == |Words(rest)| + 1 && Gaps(more)
    requires rest != [] && IsSpace(rest[0]) ==> more[0] != []
    ensures Gaps([lead] + more)
  {
    if |more| > 1 {
      assert !AllSpace(rest);
    }
    GapsCons(lead, more);
  }

  lemma GlueCons(gap: string, gaps: seq<string>, w: string, ws: seq<string>)
    requires |gaps| == |ws| + 1
    ensures Glue([gap] + gaps, [w] + ws) == gap + w + Glue(gaps, ws)
  {
    assert ([gap] + gaps)[1..] == gaps;
    assert ([w] + ws)[1..] == ws;
  }

  /** A whitespace gap in front of gaps whose first one is non-empty when more follow. */
  lemma GapsCons(lead: string, more: seq<string>)
    requires AllSpace(lead) && Gaps(more) && more != []
    requires |more| > 1 ==> more[0] != []
    ensures Gaps([lead] + more)
  {
    var g := [lead] + more;
    forall i | 0 <= i < |g| ensures AllSpace(g[i]) {
      if i > 0 { assert g[i] == more[i - 1]; }
    }
    forall i | 0 < i < |g| - 1 ensures g[i] != [] {
      assert g[i] == more[i - 1];
    }
  }

  /** Two words separated by whitespace split back into exactly those two words. */
  lemma WordsOfPair(a: string, gap: string, b: string)
    requires a != [] && NoSpace(a) && b != [] && NoSpace(b)
    requires gap != [] && AllSpace(gap)
    ensures Words(a + (gap + b)) == [a, b]
  {
    var rest := gap + b;
    assert rest[0] == gap[0];
    WordsOfGapWord(gap, b);
    WordsOfLeadingWord(a, rest);
    PairOfSingletons(Words(a + rest), a, Words(rest), b);
  }

  lemma PairOfSingletons<T>(ws: seq<T>, a: T, rest: seq<T>, b: T)
    requires ws == [a] + rest && rest == [b]
    ensures ws == [a, b]
  {
  }

  lemma WordsOfLeadingWord(a: string, rest: string)
    requires a != [] && NoSpace(a)
    requires rest != [] && IsSpace(rest[0])
    ensures Words(a + rest) == [a] + Words(rest)
  {
    WordsOfWord(a, rest);
  }

  lemma WordsOfGapWord(gap: string, b: string)
    requires b != [] && NoSpace(b)
    requires AllSpace(gap)
    ensures Words(gap + b) == [b]
  {
    WordsAfterGap(gap, b);
    WordsOfWord(b, []);
    assert b + [] == b;
  }

  /** A word followed by whitespace (or nothing) is the first element of the split. */
  lemma WordsOfWord(w: string, rest: string)
    requires w != [] && NoSpace(w)
    requires rest == [] || IsSpace(rest[0])
    ensures Words(w + rest) == [w] + Words(rest)
  {
    var s := w + rest;
    assert TrimStart(s) == s;
    WordLengthOfWord(w, rest);
    assert s[..|w|] == w && s[|w|..] == rest;
  }

  /** Leading whitespace does not change the split. */
  lemma WordsAfterGap(gap: string, b: string)
    requires AllSpace(gap)
    requires b == [] || !IsSpace(b[0])
    ensures Words(gap + b) == Words(b)
  {
    TrimStartOfGap(gap, b);
    assert TrimStart(b) == b;
  }

  lemma {:induction false} WordLengthOfWord(w: string, rest: string)
    requires NoSpace(w)
    requires rest == [] || IsSpace(rest[0])
    ensures WordLength(w + rest) == |w|
  {
    if w != [] {
      assert (w + rest)[1..] == w[1..] + rest;
      WordLengthOfWord(w[1..], rest);
    } else {
      assert w + rest == rest;
    }
  }

  lemma {:induction false} TrimStartOfGap(gap: string, b: string)
    requires AllSpace(gap)
    requires b == [] || !IsSpace(b[0])
    ensures TrimStart(gap + b) == b
  {
    if gap == [] {
      assert gap + b == b;
    } else {
      assert (gap + b)[1..] == gap[1..] + b;
      TrimStartOfGap(gap[1..], b);
    }
  }

  /** Number of occurrences of `c` in `s`. */
  function Count(s: string, c: char): (n: nat)
    ensures n <= |s|
    ensures n == 0 <==> c !in s
  {
    if s == [] then 0 else (if s[0] == c then 1 else 0) + Count(s[1..], c)
  }

  /** `s.split(c)` for a one-character separator: the pieces between occurrences of `c`. */
  function SplitOn(s: string, c: char): (parts: seq<string>)
    ensures |parts| == Count(s, c) + 1
    ensures forall i :: 0 <= i < |parts| ==> c !in parts[i]
  {
    if s == [] then [[]]
    else
      var rest := SplitOn(s[1..], c);
      if s[0] == c then [[]] + rest
      else [[s[0]] + rest[0]] + rest[1..]
  }

  /** Text with exactly one `c` splits into the pieces before and after it. */
  lemma SplitOnce(a: string, b: string, c: char)
    requires c !in a && c !in b
    ensures SplitOn(a + [c] + b, c) == [a, b]
  {
    var rest := [c] + b;
    SplitOnNoSeparator(b, c);
    assert rest[1..] == b;
    SplitOnAtSeparator(rest, c);
    SplitOnUnseparatedPrefix(a, rest, c);
    assert a + [c] + b == a + rest;
    assert a + [] == a;
  }

  lemma SplitOnAtSeparator(s: string, c: char)
    requires s != [] && s[0] == c
    ensures SplitOn(s, c) == [[]] + SplitOn(s[1..], c)
  {
  }

  lemma {:induction false} SplitOnNoSeparator(s: string, c: char)
    requires c !in s
    ensures SplitOn(s, c) == [s]
  {
    if s != [] {
      SplitOnNoSeparator(s[1..], c);
      assert [s[0]] + s[1..] == s;
    }
  }

  /** A prefix free of `c` is glued to the first piece of the rest. */
  lemma {:induction false} SplitOnUnseparatedPrefix(a: string, rest: string, c: char)
    requires c !in a
    ensures SplitOn(a + rest, c) == [a + SplitOn(rest, c)[0]] + SplitOn(rest, c)[1..]
  {
    var q := SplitOn(rest, c);
    if a == [] {
      assert a + rest == rest;
      GlueNothing(q);
    } else {
      SplitOnUnseparatedPrefix(a[1..], rest, c);
      SplitOnGlueStep(a, rest, c);
    }
  }

  /** The step of `SplitOnUnseparatedPrefix` past the first character of the prefix. */
  lemma SplitOnGlueStep(a: string, rest: string, c: char)
    requires a != [] && a[0] != c
    requires SplitOn(a[1..] + rest, c) == [a[1..] + SplitOn(rest, c)[0]] + SplitOn(rest, c)[1..]
    ensures SplitOn(a + rest, c) == [a + SplitOn(rest, c)[0]] + SplitOn(rest, c)[1..]
  {
    var q := SplitOn(rest, c);
    ConsAppend(a, rest);
    SplitOnAtOther(a + rest, c);
    GlueFirst(a, q[0], q[1..]);
  }

  lemma GlueNothing<T>(q: seq<seq<T>>)
    requires q != []
    ensures [[] + q[0]] + q[1..] == q
  {
    assert [] + q[0] == q[0];
    assert [q[0]] + q[1..] == q;
  }

  /** Cutting `a + b` after its first element. */
  lemma ConsAppend<T>(a: seq<T>, b: seq<T>)
    requires a != []
    ensures (a + b)[0] == a[0] && (a + b)[1..] == a[1..] + b
  {
  }

  /** Gluing the head of `a` back onto the first piece. */
  lemma GlueFirst<T>(a: seq<T>, first: seq<T>, others: seq<seq<T>>)
    requires a != []
    ensures var r := [a[1..] + first] + others;
      [[a[0]] + r[0]] + r[1..] == [a + first] + others
  {
    var r := [a[1..] + first] + others;
    assert r[0] == a[1..] + first && r[1..] == others;
    assert [a[0]] + (a[1..] + first) == a + first;
  }

  lemma SplitOnAtOther(s: string, c: char)
    requires s != [] && s[0] != c
    ensures SplitOn(s, c) == [[s[0]] + SplitOn(s[1..], c)[0]] + SplitOn(s[1..], c)[1..]
  {
  }

  /** `c.join(parts)`. */
  function Join(parts: seq<string>, c: char): string
    requires parts != []
  {
    if |parts| == 1 then parts[0] else parts[0] + [c] + Join(parts[1..], c)
  }

  /** Splitting on `c` and joining with `c` gives back the original text. */
  lemma {:induction false} SplitJoin(s: string, c: char)
    ensures Join(SplitOn(s, c), c) == s
  {
    if s != [] {
      var rest := SplitOn(s[1..], c);
      SplitJoin(s[1..], c);
      if s[0] == c {
        assert SplitOn(s, c) == [[]] + rest;
        assert ([[]] + rest)[1..] == rest;
      } else {
        var parts := SplitOn(s, c);
        assert parts == [[s[0]] + rest[0]] + rest[1..];
        if |rest| == 1 {
          assert Join(parts, c) == [s[0]] + rest[0];
        } else {
          assert parts[1..] == rest[1..];
          assert Join(rest, c) == rest[0] + [c] + Join(rest[1..], c);
        }
      }
    }
  }
}

=== FILE: timestamps.dfy ===
/**
 * Python's `datetime.strptime` and `datetime.strftime` restricted to the two
 * formats the scrapers use:
 *   Plain   "%Y-%m-%d %H:%M:%S.%f"   (VK page dates, and every emitted deadline)
 *   IsoZulu "%Y-%m-%dT%H:%M:%S.%fZ"  (the `datetime` attribute on the Yandex page)
 *
 * `strptime` matches a regular expression in which every numeric directive is
 * followed by a literal non-digit or by the end of the text.  Under that shape
 * a directive matches exactly the maximal run of digits at its position, so
 * the text is first cut into digit runs and single separator characters
 * (`Scan`), and the format is then matched token by token.
 */
module Timestamps {
  import opened Wrappers

  datatype DateTime = DateTime(
    year: int, month: int, day: int,
    hour: int, minute: int, second: int, microsecond: int)

  predicate IsLeapYear(y: int) {
    y % 4 == 0 && (y % 100 != 0 || y % 400 == 0)
  }

  function DaysInMonth(y: int, m: int): (d: int)
    requires 1 <= m <= 12
    ensures 28 <= d <= 31
    ensures d == 28 <==> m == 2 && !IsLeapYear(y)
    ensures d == 29 <==> m == 2 && IsLeapYear(y)
    ensures d == 30 <==> m == 4 || m == 6 || m == 9 || m == 11
    ensures d == 31 <==> m == 1 || m == 3 || m == 5 || m == 7 || m == 8 || m == 10 || m == 12
  {
    if m == 2 then (if IsLeapYear(y) then 29 else 28)
    else if m == 4 || m == 6 || m == 9 || m == 11 then 30
    else 31
  }

  /** The values the `datetime` constructor accepts. */
  predicate Valid(dt: DateTime) {
    && 1 <= dt.year <= 9999
    && 1 <= dt.month <= 12
    && 1 <= dt.day <= DaysInMonth(dt.year, dt.month)
    && 0 <= dt.hour <= 23
    && 0 <= dt.minute <= 59
    && 0 <= dt.second <= 59
    && 0 <= dt.microsecond <= 999999
  }

  predicate IsDigit(c: char) {
    '0' <= c <= '9'
  }

  predicate AllDigits(s: string) {
    forall k :: 0 <= k < |s| ==> IsDigit(s[k])
  }

  function Pow10(n: nat): (p: nat)
    ensures p >= 1
  {
    if n == 0 then 1 else 10 * Pow10(n - 1)
  }

  /** The number a run of decimal digits denotes (`int(s)`). */
  function DigitsValue(s: string): (v: nat)
    requires AllDigits(s)
    ensures v < Pow10(|s|)
  {
    if s == [] then 0
    else DigitsValue(s[..|s| - 1]) * 10 + (s[|s| - 1] - '0') as int
  }

  function DigitChar(d: nat): (c: char)
    requires d < 10
    ensures IsDigit(c)
  {
    ('0' as int + d) as char
  }

  /** `n` written with exactly `w` digits, zero-padded on the left (`%0wd`). */
  function Pad(n: nat, w: nat): (s: string)
    ensures |s| == w && AllDigits(s)
  {
    if w == 0 then [] else Pad(n / 10, w - 1) + [DigitChar(n % 10)]
  }

  /** Padding is undone by reading the digits back. */
  lemma {:induction false} PadValue(n: nat, w: nat)
    requires n < Pow10(w)
    ensures DigitsValue(Pad(n, w)) == n
  {
    if w > 0 {
      var s := Pad(n, w);
      assert s[..|s| - 1] == Pad(n / 10, w - 1);
      PadValue(n / 10, w - 1);
    }
  }

  /** Length of the run of digits that starts `s`. */
  function DigitRun(s: string): (n: nat)
    ensures n <= |s| && AllDigits(s[..n])
    ensures n < |s| ==> !IsDigit(s[n])
  {
    if s == [] || !IsDigit(s[0]) then 0 else 1 + DigitRun(s[1..])
  }

  datatype Token = Digits(ds: string) | Sep(c: char)

  predicate WellFormed(t: Token) {
    match t
    case Digits(ds) => ds != [] && AllDigits(ds)
    case Sep(c) => !IsDigit(c)
  }

  /** The text cut into maximal digit runs and single non-digit characters. */
  function Scan(s: string): seq<Token>
    decreases |s|
  {
    if s == [] then []
    else if IsDigit(s[0]) then
      var n := DigitRun(s);
      [Digits(s[..n])] + Scan(s[n..])
    else [Sep(s[0])] + Scan(s[1..])
  }

  /** Every token of a scan is a non-empty digit run or a single non-digit. */
  lemma {:induction false} ScanWellFormed(s: string)
    ensures forall i :: 0 <= i < |Scan(s)| ==> WellFormed(Scan(s)[i])
    decreases |s|
  {
    if s != [] {
      var n := if IsDigit(s[0]) then DigitRun(s) else 1;
      ScanWellFormed(s[n..]);
      assert Scan(s) == [if IsDigit(s[0]) then Digits(s[..n]) else Sep(s[0])] + Scan(s[n..]);
    }
  }

  function TokenText(t: Token): string {
    match t
    case Digits(ds) => ds
    case Sep(c) => [c]
  }

  /** Tokens written back to text. */
  function Unscan(ts: seq<Token>): string {
    if ts == [] then [] else TokenText(ts[0]) + Unscan(ts[1..])
  }

  /** Well-formed tokens in which no two digit runs are adjacent: what `Scan` produces. */
  predicate Alternating(ts: seq<Token>) {
    && (forall i :: 0 <= i < |ts| ==> WellFormed(ts[i]))
    && (forall i :: 0 <= i < |ts| - 1 ==> !(ts[i].Digits? && ts[i + 1].Digits?))
  }

  lemma {:induction false} DigitRunOfDigits(ds: string, rest: string)
    requires AllDigits(ds)
    requires rest == [] || !IsDigit(rest[0])
    ensures DigitRun(ds + rest) == |ds|
  {
    if ds == [] {
      assert ds + rest == rest;
    } else {
      assert (ds + rest)[1..] == ds[1..] + rest;
      DigitRunOfDigits(ds[1..], rest);
    }
  }

  /** Scanning the text of alternating tokens gives the tokens back. */
  lemma {:induction false} ScanUnscan(ts: seq<Token>)
    requires Alternating(ts)
    ensures Scan(Unscan(ts)) == ts
  {
    if ts != [] {
      var rest := Unscan(ts[1..]);
      assert Alternating(ts[1..]);
      ScanUnscan(ts[1..]);
      assert ts[1..] != [] ==> rest == TokenText(ts[1]) + Unscan(ts[2..]);
      match ts[0]
      case Sep(c) =>
        assert Unscan(ts) == [c] + rest;
        assert ([c] + rest)[1..] == rest;
      case Digits(ds) =>
        var s := ds + rest;
        assert Unscan(ts) == s;
        DigitRunOfDigits(ds, rest);
        assert s[..|ds|] == ds && s[|ds|..] == rest;
    }
  }

  /** Scanning distributes over concatenation when the seam does not join two digit runs. */
  lemma {:induction false} ScanConcat(a: string, b: string)
    requires a == [] || b == [] || !IsDigit(a[|a| - 1]) || !IsDigit(b[0])
    ensures Scan(a + b) == Scan(a) + Scan(b)
    decreases |a|
  {
    if a == [] {
      assert a + b == b;
    } else if !IsDigit(a[0]) {
      ScanConcat(a[1..], b);
      ScanConcatSep(a, b);
    } else if DigitRun(a) < |a| {
      ScanConcat(a[DigitRun(a)..], b);
      ScanConcatRun(a, b);
    } else {
      ScanConcatDigits(a, b);
    }
  }

  /** The step of `ScanConcat` past a leading separator. */
  lemma ScanConcatSep(a: string, b: string)
    requires a != [] && !IsDigit(a[0])
    requires Scan(a[1..] + b) == Scan(a[1..]) + Scan(b)
    ensures Scan(a + b) == Scan(a) + Scan(b)
  {
    TakeDropAppend(a, b, 1);
    ScanSepStep(a + b);
    ScanSepStep(a);
    ConsAssoc(Sep(a[0]), Scan(a[1..]), Scan(b));
  }

  /** The step of `ScanConcat` past a leading digit run that ends inside `a`. */
  lemma ScanConcatRun(a: string, b: string)
    requires a != [] && IsDigit(a[0]) && DigitRun(a) < |a|
    requires Scan(a[DigitRun(a)..] + b) == Scan(a[DigitRun(a)..]) + Scan(b)
    ensures Scan(a + b) == Scan(a) + Scan(b)
  {
    var n := DigitRun(a);
    DigitRunPrefix(a, b);
    TakeDropAppend(a, b, n);
    ScanDigitStep(a + b);
    ScanDigitStep(a);
    ConsAssoc(Digits(a[..n]), Scan(a[n..]), Scan(b));
  }

  /** Cutting `a + b` inside `a`. */
  lemma TakeDropAppend<T>(a: seq<T>, b: seq<T>, n: nat)
    requires 0 < n <= |a|
    ensures (a + b)[0] == a[0] && (a + b)[..n] == a[..n] && (a + b)[n..] == a[n..] + b
  {
  }

  /** One step of `Scan` over a leading separator. */
  lemma ScanSepStep(s: string)
    requires s != [] && !IsDigit(s[0])
    ensures Scan(s) == [Sep(s[0])] + Scan(s[1..])
  {
  }

  /** One step of `Scan` over a leading digit run. */
  lemma ScanDigitStep(s: string)
    requires s != [] && IsDigit(s[0])
    ensures Scan(s) == [Digits(s[..DigitRun(s)])] + Scan(s[DigitRun(s)..])
  {
  }

  lemma ConsAssoc<T>(x: T, p: seq<T>, q: seq<T>)
    ensures [x] + (p + q) == [x] + p + q
  {
  }

  /** `ScanConcat` when `a` is one digit run and `b` starts with a separator. */
  lemma ScanConcatDigits(a: string, b: string)
    requires a != [] && IsDigit(a[0]) && DigitRun(a) == |a|
    requires b == [] || !IsDigit(b[0])
    ensures Scan(a + b) == Scan(a) + Scan(b)
  {
    assert a[..|a|] == a && a[|a|..] == [];
    DigitRunOfDigits(a, b);
    assert (a + b)[..|a|] == a && (a + b)[|a|..] == b;
  }

  lemma DigitRunPrefix(a: string, b: string)
    requires DigitRun(a) < |a|
    ensures DigitRun(a + b) == DigitRun(a)
    decreases |a|
  {
    if IsDigit(a[0]) {
      assert (a + b)[1..] == a[1..] + b;
      DigitRunPrefix(a[1..], b);
    }
  }

  datatype Format = Plain | IsoZulu

  function DateTimeSeparator(f: Format): char {
    if f == Plain then ' ' else 'T'
  }

  /** A numeric directive: a run of `lo`..`hi` digits. */
  function Field(t: Token, lo: nat, hi: nat): (r: Option<nat>)
    ensures r.Some? ==> t.Digits? && lo <= |t.ds| <= hi && AllDigits(t.ds) && r.value == DigitsValue(t.ds)
  {
    if t.Digits? && lo <= |t.ds| <= hi && AllDigits(t.ds) then Some(DigitsValue(t.ds)) else None
  }

  /** The token layout both formats share, with the separator between date and time and the optional trailing `Z`. */
  predicate Layout(t: seq<Token>, f: Format) {
    && |t| == (if f == Plain then 13 else 14)
    && t[1] == Sep('-') && t[3] == Sep('-') && t[5] == Sep(DateTimeSeparator(f))
    && t[7] == Sep(':') && t[9] == Sep(':') && t[11] == Sep('.')
    && (f == IsoZulu ==> t[13] == Sep('Z'))
  }

  /** `datetime.strptime(s, fmt)`: `None` where Python raises `ValueError`. */
  function Strptime(s: string, f: Format): (r: Option<DateTime>)
    ensures r.Some? ==> Valid(r.value)
  {
    var t := Scan(s);
    if !Layout(t, f) then None
    else
      var year :- Field(t[0], 4, 4);
      var month :- Field(t[2], 1, 2);
      var day :- Field(t[4], 1, 2);
      var hour :- Field(t[6], 1, 2);
      var minute :- Field(t[8], 1, 2);
      var second :- Field(t[10], 1, 2);
      var fraction :- Field(t[12], 1, 6);
      var dt := DateTime(year, month, day, hour, minute, second,
                         fraction * Pow10(6 - |t[12].ds|));
      if Valid(dt) then Some(dt) else None
  }

  /** A successful parse reads each field off the token at its place in the layout. */
  lemma StrptimeFields(s: string, f: Format)
    ensures var r := Strptime(s, f); var t := Scan(s);
      r.Some? ==>
        && Layout(t, f)
        && t[0].Digits? && t[2].Digits? && t[4].Digits? && t[6].Digits?
        && t[8].Digits? && t[10].Digits? && t[12].Digits?
        && |t[0].ds| == 4 && 1 <= |t[12].ds| <= 6
        && r.value.year == DigitsValue(t[0].ds) && r.value.month == DigitsValue(t[2].ds)
        && r.value.day == DigitsValue(t[4].ds) && r.value.hour == DigitsValue(t[6].ds)
        && r.value.minute == DigitsValue(t[8].ds) && r.value.second == DigitsValue(t[10].ds)
        && r.value.microsecond == DigitsValue(t[12].ds) * Pow10(6 - |t[12].ds|)
  {
    var t := Scan(s);
    if Strptime(s, f).Some? {
      assert Layout(t, f);
      assert Field(t[0], 4, 4).Some? && Field(t[2], 1, 2).Some? && Field(t[4], 1, 2).Some?;
      assert Field(t[6], 1, 2).Some? && Field(t[8], 1, 2).Some? && Field(t[10], 1, 2).Some?;
      assert Field(t[12], 1, 6).Some?;
    }
  }

  /**
   * The converse: text whose tokens have the layout, with digit fields of
   * the allowed widths that make a valid date-time, parses to that date-time.
   */
  lemma StrptimeAccepts(s: string, f: Format, dt: DateTime)
    requires var t := Scan(s);
      && Layout(t, f)
      && t[0].Digits? && |t[0].ds| == 4 && AllDigits(t[0].ds)
      && ShortField(t[2]) && ShortField(t[4]) && ShortField(t[6]) && ShortField(t[8]) && ShortField(t[10])
      && t[12].Digits? && 1 <= |t[12].ds| <= 6 && AllDigits(t[12].ds)
      && dt == DateTime(DigitsValue(t[0].ds), DigitsValue(t[2].ds), DigitsValue(t[4].ds),
                        DigitsValue(t[6].ds), DigitsValue(t[8].ds), DigitsValue(t[10].ds),
                        DigitsValue(t[12].ds) * Pow10(6 - |t[12].ds|))
    requires Valid(dt)
    ensures Strptime(s, f) == Some(dt)
  {
  }

  /** The thirteen tokens of `%Y-%m-%d %H:%M:%S.%f` with the given digit runs. */
  predicate PlainTokens(t: seq<Token>, y: string, mo: string, d: string, h: string, mi: string, se: string, fr: string) {
    && |t| == 13
    && t[0] == Digits(y) && t[1] == Sep('-') && t[2] == Digits(mo) && t[3] == Sep('-')
    && t[4] == Digits(d) && t[5] == Sep(' ') && t[6] == Digits(h) && t[7] == Sep(':')
    && t[8] == Digits(mi) && t[9] == Sep(':') && t[10] == Digits(se) && t[11] == Sep('.')
    && t[12] == Digits(fr)
  }

  /** `StrptimeAccepts` for the plain format, with the thirteen tokens named one by one. */
  lemma {:induction false} PlainTokensParse(s: string, y: string, mo: string, d: string, h: string, mi: string,
                                            se: string, fr: string, dt: DateTime)
    requires PlainTokens(Scan(s), y, mo, d, h, mi, se, fr)
    requires |y| == 4 && AllDigits(y) && 1 <= |fr| <= 6 && AllDigits(fr)
    requires ShortField(Digits(mo)) && ShortField(Digits(d)) && ShortField(Digits(h))
    requires ShortField(Digits(mi)) && ShortField(Digits(se))
    requires dt.year == DigitsValue(y) && dt.month == DigitsValue(mo) && dt.day == DigitsValue(d)
    requires dt.hour == DigitsValue(h) && dt.minute == DigitsValue(mi) && dt.second == DigitsValue(se)
    requires dt.microsecond == DigitsValue(fr) * Pow10(6 - |fr|)
    requires Valid(dt)
    ensures Strptime(s, Plain) == Some(dt)
  {
    StrptimeAccepts(s, Plain, dt);
  }

  /** A token `%m`, `%d`, `%H`, `%M` or `%S` reads: one or two digits. */
  predicate ShortField(t: Token) {
    t.Digits? && 1 <= |t.ds| <= 2 && AllDigits(t.ds)
  }

  function DateTokens(dt: DateTime): seq<Token>
    requires Valid(dt)
  {
    [Digits(Pad(dt.year, 4)), Sep('-'), Digits(Pad(dt.month, 2)), Sep('-'), Digits(Pad(dt.day, 2))]
  }

  function TimeTokens(dt: DateTime): seq<Token>
    requires Valid(dt)
  {
    [Digits(Pad(dt.hour, 2)), Sep(':'), Digits(Pad(dt.minute, 2)), Sep(':'), Digits(Pad(dt.second, 2)),
     Sep('.'), Digits(Pad(dt.microsecond, 6))]
  }

  /** The tokens `strftime` writes for a valid date-time. */
  function RenderTokens(dt: DateTime, f: Format): (ts: seq<Token>)
    requires Valid(dt)
    ensures Alternating(ts)
  {
    DateTokens(dt) + [Sep(DateTimeSeparator(f))] + TimeTokens(dt)
    + (if f == IsoZulu then [Sep('Z')] else [])
  }

  /** `dt.strftime(fmt)`: every field zero-padded, the fraction to six digits. */
  function Render(dt: DateTime, f: Format): string
    requires Valid(dt)
  {
    Unscan(RenderTokens(dt, f))
  }

  lemma FieldOfPad(n: nat, w: nat, lo: nat, hi: nat)
    requires lo <= w <= hi && n < Pow10(w)
    ensures Field(Digits(Pad(n, w)), lo, hi) == Some(n)
  {
    PadValue(n, w);
  }

  lemma RenderTokensLayout(dt: DateTime, f: Format)
    requires Valid(dt)
    ensures var ts := RenderTokens(dt, f);
      && Layout(ts, f)
      && ts[0] == Digits(Pad(dt.year, 4)) && ts[2] == Digits(Pad(dt.month, 2))
      && ts[4] == Digits(Pad(dt.day, 2)) && ts[6] == Digits(Pad(dt.hour, 2))
      && ts[8] == Digits(Pad(dt.minute, 2)) && ts[10] == Digits(Pad(dt.second, 2))
      && ts[12] == Digits(Pad(dt.microsecond, 6))
  {
  }

  /** Parsing what `strftime` wrote gives back the same date-time. */
  lemma RenderParses(dt: DateTime, f: Format)
    requires Valid(dt)
    ensures Strptime(Render(dt, f), f) == Some(dt)
  {
    var ts := RenderTokens(dt, f);
    ScanUnscan(ts);
    RenderTokensLayout(dt, f);
    FieldOfPad(dt.year, 4, 4, 4);
    FieldOfPad(dt.month, 2, 1, 2);
    FieldOfPad(dt.day, 2, 1, 2);
    FieldOfPad(dt.hour, 2, 1, 2);
    FieldOfPad(dt.minute, 2, 1, 2);
    FieldOfPad(dt.second, 2, 1, 2);
    FieldOfPad(dt.microsecond, 6, 1, 6);
  }

  function DateText(dt: DateTime): (s: string)
    requires Valid(dt)
    ensures |s| == 10
  {
    Pad(dt.year, 4) + "-" + Pad(dt.month, 2) + "-" + Pad(dt.day, 2)
  }

  function TimeText(dt: DateTime): (s: string)
    requires Valid(dt)
    ensures |s| == 15
  {
    Pad(dt.hour, 2) + ":" + Pad(dt.minute, 2) + ":" + Pad(dt.second, 2) + "." + Pad(dt.microsecond, 6)
  }

  lemma UnscanStep(ts: seq<Token>, i: nat)
    requires i < |ts|
    ensures Unscan(ts[i..]) == TokenText(ts[i]) + Unscan(ts[i + 1..])
  {
    assert ts[i..][1..] == ts[i + 1..];
  }

  lemma DateTokensText(dt: DateTime)
    requires Valid(dt)
    ensures Unscan(DateTokens(dt)) == DateText(dt)
  {
    UnscanFive(Pad(dt.year, 4), '-', Pad(dt.month, 2), '-', Pad(dt.day, 2));
  }

  lemma TimeTokensText(dt: DateTime)
    requires Valid(dt)
    ensures Unscan(TimeTokens(dt)) == TimeText(dt)
  {
    var ts := TimeTokens(dt);
    assert ts == ts[..2] + ts[2..];
    UnscanConcat(ts[..2], ts[2..]);
    UnscanFive(Pad(dt.minute, 2), ':', Pad(dt.second, 2), '.', Pad(dt.microsecond, 6));
    UnscanTwo(Pad(dt.hour, 2), ':');
  }

  /** The text of a digit run and a separator. */
  lemma UnscanTwo(a: string, c: char)
    ensures Unscan([Digits(a), Sep(c)]) == a + [c]
  {
    var ts := [Digits(a), Sep(c)];
    UnscanStep(ts, 1);
    UnscanStep(ts, 0);
    assert ts[0..] == ts && ts[2..] == [];
  }

  /** The text of three digit runs with two separators between them. */
  lemma UnscanFive(a: string, c1: char, b: string, c2: char, d: string)
    ensures Unscan([Digits(a), Sep(c1), Digits(b), Sep(c2), Digits(d)]) == a + [c1] + b + [c2] + d
  {
    var ts := [Digits(a), Sep(c1), Digits(b), Sep(c2), Digits(d)];
    UnscanStep(ts, 4);
    UnscanStep(ts, 3);
    UnscanStep(ts, 2);
    UnscanStep(ts, 1);
    UnscanStep(ts, 0);
    assert ts[0..] == ts && ts[5..] == [];
  }

  /** Written out, a rendering is the padded date, the separator, the padded time and the optional 'Z'. */
  lemma RenderText(dt: DateTime, f: Format)
    requires Valid(dt)
    ensures Render(dt, f) == DateText(dt) + [DateTimeSeparator(f)] + TimeText(dt) + (if f == IsoZulu then "Z" else "")
  {
    var d, t := DateTokens(dt), TimeTokens(dt);
    var z: seq<Token> := if f == IsoZulu then [Sep('Z')] else [];
    UnscanConcat(d + [Sep(DateTimeSeparator(f))] + t, z);
    UnscanConcat(d + [Sep(DateTimeSeparator(f))], t);
    UnscanConcat(d, [Sep(DateTimeSeparator(f))]);
    DateTokensText(dt);
    TimeTokensText(dt);
    assert Unscan([Sep(DateTimeSeparator(f))]) == [DateTimeSeparator(f)];
    assert f == IsoZulu ==> Unscan(z) == "Z";
  }

  /**
   * The textual shape every emitted deadline has:
   * four digits, '-', two, '-', two, ' ', two, ':', two, ':', two, '.', six.
   */
  predicate DeadlinePattern(s: string) {
    && |s| == 26
    && AllDigits(s[0..4]) && s[4] == '-' && AllDigits(s[5..7]) && s[7] == '-'
    && AllDigits(s[8..10]) && s[10] == ' ' && AllDigits(s[11..13]) && s[13] == ':'
    && AllDigits(s[14..16]) && s[16] == ':' && AllDigits(s[17..19]) && s[19] == '.'
    && AllDigits(s[20..26])
  }

  /** In a plain rendering, every field sits at a fixed position, zero-padded. */
  lemma RenderPositions(dt: DateTime)
    requires Valid(dt)
    ensures var s := Render(dt, Plain);
      && |s| == 26
      && s[..4] == Pad(dt.year, 4) && s[4] == '-' && s[5..7] == Pad(dt.month, 2)
      && s[7] == '-' && s[8..10] == Pad(dt.day, 2) && s[10] == ' '
      && s[11..13] == Pad(dt.hour, 2) && s[13] == ':' && s[14..16] == Pad(dt.minute, 2)
      && s[16] == ':' && s[17..19] == Pad(dt.second, 2) && s[19] == '.'
      && s[20..26] == Pad(dt.microsecond, 6)
  {
    RenderText(dt, Plain);
    assert Render(dt, Plain) == DateText(dt) + [' '] + TimeText(dt);
    PiecesOfRendering(Pad(dt.year, 4), Pad(dt.month, 2), Pad(dt.day, 2), Pad(dt.hour, 2),
                      Pad(dt.minute, 2), Pad(dt.second, 2), Pad(dt.microsecond, 6), '-', ' ', ':', '.');
  }

  /** The rendering's layout, for pieces of any element type: seven fields and their separators by position. */
  lemma PiecesOfRendering<T>(y: seq<T>, mo: seq<T>, d: seq<T>, h: seq<T>, mi: seq<T>, se: seq<T>, us: seq<T>,
                             dash: T, space: T, colon: T, dot: T)
    requires |y| == 4 && |mo| == 2 && |d| == 2 && |h| == 2 && |mi| == 2 && |se| == 2 && |us| == 6
    ensures var s := (y + [dash] + mo + [dash] + d) + [space] + (h + [colon] + mi + [colon] + se + [dot] + us);
      && |s| == 26
      && s[..4] == y && s[4] == dash && s[5..7] == mo && s[7] == dash && s[8..10] == d && s[10] == space
      && s[11..13] == h && s[13] == colon && s[14..16] == mi && s[16] == colon && s[17..19] == se
      && s[19] == dot && s[20..26] == us
  {
  }

  /** Every plain rendering matches the deadline pattern. */
  lemma RenderPattern(dt: DateTime)
    requires Valid(dt)
    ensures DeadlinePattern(Render(dt, Plain))
  {
    RenderPositions(dt);
  }

  /**
   * The ISO rendering is the plain one with the space between date and time
   * turned into 'T' and a 'Z' appended.
   */
  lemma RenderIsoIsPlainWithTZ(dt: DateTime)
    requires Valid(dt)
    ensures |Render(dt, Plain)| == 26
    ensures Render(dt, IsoZulu) == Render(dt, Plain)[..10] + "T" + Render(dt, Plain)[11..] + "Z"
  {
    RenderText(dt, Plain);
    RenderText(dt, IsoZulu);
    var p := Render(dt, Plain);
    assert p[..10] == DateText(dt);
    assert p[11..] == TimeText(dt);
  }

  lemma {:induction false} UnscanConcat(a: seq<Token>, b: seq<Token>)
    ensures Unscan(a + b) == Unscan(a) + Unscan(b)
  {
    if a == [] {
      assert a + b == b;
    } else {
      assert (a + b)[1..] == a[1..] + b;
      UnscanConcat(a[1..], b);
    }
  }
}

=== FILE: wrappers.dfy ===
/** Option and Result, the failure-compatible wrappers the rest of the model uses. */
module Wrappers {

  datatype Option<+T> = None | Some(value: T) {
    predicate IsFailure() { None? }

    function PropagateFailure<U>(): Option<U>
      requires None?
    {
      None
    }

    function Extract(): T
      requires Some?
    {
      value
    }

    function GetOr(default: T): T {
      match this
      case Some(v) => v
      case None => default
    }
  }

  datatype Result<+R, +E> = Success(value: R) | Failure(error: E) {
    predicate IsFailure() { Failure? }

    function PropagateFailure<U>(): Result<U, E>
      requires Failure?
    {
      Failure(error)
    }

    function Extract(): R
      requires Success?
    {
      value
    }
  }
}
